=== FILE: README.md ===
# urbit.org content helpers, modelled in Dafny

This project models `lib/lib.js` of the urbit.org site: the helpers that turn
the `content/` directory into the data the pages render. It covers:

- the path-keyed `get` and `set` helpers over JavaScript values;
- `getAllFiles`, the recursive file listing;
- `getLinksinSubdirs`, the documentation link tree built with `get`/`set`;
- `getPostBySlug`: slug stripping, field projection, date normalisation;
- `getAllPosts`: newest-first sort by the date text;
- `getNextPost` / `getPreviousPost`: neighbours in the sorted collection;
- `formatDate`: "<Month> <day>, <year>".

The file system and the front-matter parser are replaced by inputs. A
directory is the listing `readdirSync` would give, as a tree of
`Files.Entry`. A content file is its parse: a `Posts.Doc` holding the
front-matter table and the body, looked up by path in a map. A reading that
throws (a missing file, a property of `undefined`, `.pages.push` on a node
without pages) is an `Err` of `Results.Result`.

Modules, in dependency order:

- `Results`: `Option`, `Result` and the error kinds.
- `Decimal`: decimal text of integers and property names such as `"3"`.
- `Text`: `indexOf`/`lastIndexOf` of one character.
- `Json`: the JavaScript values the helpers see, truthiness, and property
  reads and strict-mode writes.
- `PathTree`: `get` and `set`.
- `Files`: `getAllFiles`.
- `Stringify`: `JSON.stringify` of a date value and the quote removal.
- `Posts`: `getPostBySlug`.
- `Lexicographic`: JavaScript's `<` on strings.
- `Collection`: `getAllPosts`.
- `Adjacency`: `getNextPost` and `getPreviousPost`.
- `Dates`: `formatDate` and a reader for its output.
- `Links`: `getLinksinSubdirs` as the code runs it.
- `LinkTree`: what the link tree holds.

The main results:

- `set` followed by `get` returns the value set. `set` leaves every path that
  parts from the set path unchanged. `set` creates `[]` for a missing step
  followed by a number and `{}` otherwise. `set` succeeds when the values
  already along the path are containers.
- `getAllFiles` returns the accumulator followed by the depth-first
  listing of the files, with no directory paths.
- The link tree theorem (`LinkTree.LinksTree`) holds when:
  - every listed file is readable (it has a parse among the inputs);
  - every file lies in a directory;
  - no directory is named `title` or `pages`;
  - every directory has its `_index.md`;
  - a directory's own files are scanned before any file of its
    subdirectories.

  Under those conditions each directory's node:
  - has the `title` of its `_index.md`;
  - has `pages` holding its files' entries in scan order, `_index.md`
    included.

  Each `_index.md` is read once, in order of first use. After any files
  that meet those conditions, a file whose directory has no file of its own
  yet but lies above a directory already scanned makes the scan throw
  (`LinkTree.SubdirFirstFails`). So does a file directly under `content/`
  (`LinkTree.RootFileFails`). Both follow from `LinkTree.BareNodeFails`:
  such a directory is an object `set` created on the way down, with no
  `pages`.
- The projected post has only requested fields and `date`. A truthy
  front-matter value wins over the slug and the body. A post with no date
  makes `getPostBySlug` throw. The date text never contains `"`.
- The sort returns a permutation of its input, newest first by JavaScript
  string order. That order is proved to be the lexicographic order and to be
  total and transitive.
- The neighbour is that of the last matching post. `NoMatch` stands for
  `null` and `OutOfRange` for `undefined`. With unique slugs, next of
  previous comes back.
- `formatDate`'s text determines the date: a reader recovers the year,
  month and day from it.

Behaviour of `lib/lib.js` a reader may not expect, which the model keeps:

- The post sort is not stable. The comparator never returns 0, so the
  order of equal dates is left open.
- The pages of a directory are not sorted by weight. They stay in scan
  order.
- `_index.md` is itself listed among its directory's pages.
- `getPostBySlug` throws when no date was projected.
- A file directly under `content/`, or a subdirectory's file listed before
  its parent's, makes `getLinksinSubdirs` throw.
- `weight` falls back to 0 for `null` as well as `undefined`, since `??`
  treats both alike.

## Model

| member | source | states |
|---|---|---|
| Json.ReadProp | lib/lib.js:143-148 | `obj[index]` throws exactly on `undefined`/`null`, reads an object's own member or `undefined`, and only objects, arrays and strings have defined properties |
| Json.Assign | lib/lib.js:160 | `piece[key] = value` in strict mode: an object always accepts, primitives, `null` and `undefined` throw, the kind of container is kept, and reading the key back gives the value |
| Json.AssignFrame | lib/lib.js:160 | an assignment changes no property other than the one it names, arrays included |
| Json.ArrayIndexInjective | lib/lib.js:155-160 | two array-index property names that denote the same index are the same name |
| Json.NumericKeyIndex | lib/lib.js:155-156 | a numeric path key names the array element of that index |
| PathTree.Get | lib/lib.js:142-150 | `get` returns the root for an empty path, the default when the walk meets `undefined`, the value the walk reaches when it reaches one, and throws exactly when the walk reads a property of `undefined` or `null` |
| PathTree.Set | lib/lib.js:152-162 | `set` keeps the root an object (or an array) |
| PathTree.WalkAppend | lib/lib.js:143-148 | walking `a + b` is walking `a` and then `b` from where it stopped |
| PathTree.SetStep | lib/lib.js:154-160 | one step of `set`: the child it enters is the existing value or the new container, and the root's property then holds the updated child |
| PathTree.SetThenGet | lib/lib.js:142-162 | after a successful `set` of `v` at a non-empty path, `get` of that path returns `v` (or the default when `v` is `undefined`) |
| PathTree.SetFrameHead | lib/lib.js:152-162 | `set` leaves alone every path whose first key names another property |
| PathTree.SetFrame | lib/lib.js:152-162 | `set` leaves alone every path that parts from the set path at any position |
| PathTree.SetCreatesContainer | lib/lib.js:155-157 | a step missing before `set` holds afterwards an array if the next key is a number, an object otherwise |
| PathTree.SetSucceeds | lib/lib.js:152-162 | when every value already along the path can take the next key, `set` succeeds and `get` returns what was set |
| Files.AllFiles | lib/lib.js:126-140 | the accumulator is kept as a prefix and one path per file is added |
| Files.ListAll | lib/lib.js:126-140 | `getAllFiles(dir)` is the depth-first listing of the files, a subdirectory's files standing in its place |
| Files.AllFilesIsAccPlusLeaves | lib/lib.js:129-139 | with any accumulator the result is the accumulator followed by the reference listing |
| Files.LeavesCount | lib/lib.js:131-137 | the listing has exactly one path per file and none for directories |
| Files.LeavesUnderRoot | lib/lib.js:132-135 | every file listed directly in the directory appears as `dir + "/" + name`, and every path lies under the directory |
| Decimal.NatToDec | lib/lib.js:108 | the decimal text of a number has no leading zero and is "0" exactly for zero |
| Decimal.IntToDec | lib/lib.js:108 | the decimal text of an integer starts with '-' exactly when it is negative |
| Decimal.NatToDecRoundTrip | lib/lib.js:108 | reading the decimal text of a number gives the number back |
| Decimal.CanonicalRoundTrip | lib/lib.js:155-156 | a canonical decimal text is the text of the number it reads as |
| Decimal.NatToDecInjective | lib/lib.js:155-156 | different numbers have different decimal texts, so different numeric keys name different properties |
| Stringify.JsonText | lib/lib.js:55 | `JSON.stringify` gives `undefined` exactly for `undefined`, and reports an object as `Unrepresentable` (its key order is not kept) |
| Stringify.ArrayWithObject | lib/lib.js:55 | an array holding an object anywhere among its elements is reported as `Unrepresentable` too |
| Stringify.JsonTextRenders | lib/lib.js:55 | every value but an object or an array stringifies without error, and an array that stringifies is its elements between brackets |
| Stringify.RemoveQuotes | lib/lib.js:55 | `.replace(/"/g, "")` leaves no double quote and never lengthens the text |
| Stringify.QuoteThenRemove | lib/lib.js:55 | stringifying a string of plain characters and removing the quotes gives it back |
| Stringify.RemoveQuotesAppend | lib/lib.js:55 | quote removal distributes over concatenation |
| Stringify.EscapePlain | lib/lib.js:55 | JSON escaping leaves plain characters alone |
| Posts.StripMd | lib/lib.js:33 | one trailing ".md" is removed; a slug without it is unchanged |
| Posts.StripMdOnce | lib/lib.js:33 | stripping after adding ".md" gives the name back, so "a.md.md" becomes "a.md" |
| Posts.Project | lib/lib.js:40-52 | only requested fields appear; "slug" and "content" always, any other only when its front-matter value is truthy; a truthy front-matter value wins, otherwise the stripped slug or the body |
| Posts.NormaliseDate | lib/lib.js:55 | a missing date throws; a present date yields a post with the same other fields and a `date` text without quotes |
| Posts.NormalisedDateText | lib/lib.js:55 | a date or string of plain characters keeps its text, and an integer date becomes its decimal text |
| Posts.GetPostBySlug | lib/lib.js:32-58 | an unknown collection key and a missing file throw; the post holds only requested fields and `date`, and a date was requested |
| Lexicographic.LessIff | lib/lib.js:65 | string `<` holds exactly for a proper prefix or a smaller character at the first difference |
| Lexicographic.LessIrreflexive | lib/lib.js:65 | no date text is before itself |
| Lexicographic.LessTransitive | lib/lib.js:65 | string `<` is transitive |
| Lexicographic.LessTotal | lib/lib.js:65 | two different date texts are ordered one way or the other |
| Lexicographic.LessAsymmetric | lib/lib.js:65 | string `<` never holds both ways |
| Collection.Insert | lib/lib.js:65 | inserting into a newest-first list keeps it newest first and adds exactly the one post |
| Collection.SortPosts | lib/lib.js:62-65 | the sort returns a newest-first permutation of its input |
| Collection.AllOk | lib/lib.js:63 | a `map` whose callback may throw succeeds exactly when no call throws, then holds every value in order; otherwise it fails with the first error thrown |
| Collection.PostsOf | lib/lib.js:62-63 | the map succeeds exactly when every file projects, and then holds each file's post in listing order; otherwise it fails with the error of the first file that does not project |
| Collection.AllPosts | lib/lib.js:60-68 | an unknown key throws; otherwise the result is the projected posts, newest first, as a permutation, failing exactly when a projection fails |
| Collection.ThreeDates | lib/lib.js:65 | three posts with increasing dates come out in reverse order |
| Collection.ThreeDatesExample | lib/lib.js:60-68 | posts dated January, March and February 2021 are listed March, February, January |
| Adjacency.LastMatch | lib/lib.js:73-77 | the last index whose post has the slug, or none when no post has it |
| Adjacency.ScanNeighbour | lib/lib.js:73-77 | the `forEach` leaves the neighbour of the last matching post, and `null` exactly when nothing matches |
| Adjacency.NextOf | lib/lib.js:70-79 | the post before the last match, `undefined` when that match is first |
| Adjacency.PreviousOf | lib/lib.js:81-90 | the post after the last match, `undefined` when that match is last |
| Adjacency.GetNextPost | lib/lib.js:70-79 | `getNextPost` fails exactly when `getAllPosts` does, and otherwise returns the neighbour before the last match |
| Adjacency.GetPreviousPost | lib/lib.js:81-90 | `getPreviousPost` fails exactly when `getAllPosts` does, and otherwise returns the neighbour after the last match |
| Adjacency.PreviousThenNext | lib/lib.js:70-90 | with unique slugs, the next post of the previous post carries the slug started from |
| Adjacency.UnrequestedSlugAbsent | lib/lib.js:40-52 | a post holds no "slug" unless it was requested |
| Adjacency.NoSlugFieldNoMatch | lib/lib.js:70-90 | without "slug" among the fields, neither neighbour is ever found |
| Dates.FormatDate | lib/lib.js:92-109 | reading back the formatted text gives the year, month and day |
| Dates.FormatParseRoundTrip | lib/lib.js:108 | "<Month> <day>, <year>" splits back into the month name and both numbers |
| Dates.DayYearRoundTrip | lib/lib.js:108 | "<day>, <year>" splits back into both numbers |
| Dates.ParseIntToDec | lib/lib.js:108 | the unpadded decimal text of an integer reads back as that integer |
| Dates.MonthNameFacts | lib/lib.js:94-107 | the twelve month names have no space and are pairwise different |
| Dates.Find | lib/lib.js:94-107 | the first position of a name in the month table, or none when absent |
| Text.FirstIndex | lib/lib.js:168-169 | the first position of a character, with none before it, or none at all |
| Text.LastIndex | lib/lib.js:168 | the last position of a character, with none after it, or none at all |
| Text.FirstIndexAfter | lib/lib.js:169 | a character absent from a prefix is first found right after it |
| Text.LastIndexBefore | lib/lib.js:168 | a character absent from a suffix is last found right before it |
| Links.IndexFrom | lib/lib.js:168 | `indexOf` gives the first occurrence at or after the start, or -1 when there is none |
| Links.RelPath | lib/lib.js:168 | the path from the slash after the first "content/", or from the seventh character when "content/" is missing |
| Links.RelPathBehind | lib/lib.js:168 | a path whose root has no 'c' keeps everything after its "content" |
| Links.StripExt | lib/lib.js:168 | `parse(...).name` is the base cut before its last dot, unless that dot starts the base |
| Links.ParsePath | lib/lib.js:168 | `parse` splits at the last slash: the base has no slash, and directory and base join back to the path |
| Links.ParseJoined | lib/lib.js:168 | a path with a directory part parses back into that directory and base |
| Links.StripOneExt | lib/lib.js:168 | a name with one extension loses exactly that extension |
| Links.Segments | lib/lib.js:169 | the non-empty `/`-separated segments, none containing a slash |
| Links.SegmentsPrepend | lib/lib.js:169 | a directory name followed by a slash-led path splits into that name and the rest's segments |
| Links.SegmentsOfJoin | lib/lib.js:169 | splitting a joined directory path gives its names back |
| Links.Weight | lib/lib.js:187 | `data?.weight ?? 0`: the front-matter weight when neither `undefined` nor `null`, 0 otherwise |
| Links.EnsureNode | lib/lib.js:170-179 | a truthy node is kept and nothing is read; a falsy node makes the directory's `_index.md` be read (throwing when it is missing) and recorded, and its new node is what `get` reaches afterwards; a `get` that throws makes the round throw |
| Links.PushPage | lib/lib.js:183-188 | `.pages.push(...)` throws when the node's `pages` is not an array; when it succeeds the node's pages are the ones found with the item appended, reads are unchanged and the tree stays an object |
| Links.AddFile | lib/lib.js:167-189 | a round succeeds only for a readable file and reads at most the file's own `_index.md` |
| Links.Scan | lib/lib.js:167-189 | the scan of no files is the empty tree, and any scan that succeeds builds an object |
| Links.LinksInSubdirs | lib/lib.js:164-191 | `getLinksinSubdirs` returns an object exactly when the scan of its listing succeeds |
| Links.RelPathExample | lib/lib.js:168 | "/site/content/docs/a/x.md" gives "/docs/a/x.md" |
| Links.ParseExample | lib/lib.js:168 | "/docs/a/x.md" parses into directory "/docs/a", base "x.md", name "x" |
| Links.SegmentsExample | lib/lib.js:169 | "/docs/a" gives the keys "docs", "a" |
| Links.RelPathJoined | lib/lib.js:168 | a path whose root has no 'c' keeps, from the slash after "content", the directories and the base |
| Links.LocateJoined | lib/lib.js:168-169 | for a root with no 'c' and a base with no '/', a file under "content/", below one or more plain directory names, is located at those names in order, with its directory path, its base and its name without extension |
| Links.LocateExample | lib/lib.js:168-169 | a page two directories down gets the keys of both directories and its base and name |
| LinkTree.ShapeWalk | lib/lib.js:170 | a walk along directory names in the tree ends at nothing or at a directory object |
| LinkTree.ShapeSet | lib/lib.js:179 | `set` along directory names succeeds and keeps the tree made of directory objects |
| LinkTree.FrameAt | lib/lib.js:179-183 | `set` at a directory path leaves alone a path that parts from it |
| LinkTree.AddSeen | lib/lib.js:170-188 | the file of a directory already seen reads no `_index.md` and appends its entry to the existing pages |
| LinkTree.CreateNode | lib/lib.js:170-179 | a directory without a node gets a fresh one from its `_index.md`, recorded as read |
| LinkTree.AddNew | lib/lib.js:170-188 | the first file of a new directory creates its node from `_index.md` and makes itself the only page |
| LinkTree.ReachAfterPush | lib/lib.js:183-188 | a push onto a seen directory keeps every unseen directory absent |
| LinkTree.ReachAfterCreate | lib/lib.js:179 | a new node keeps every other unseen directory absent |
| LinkTree.NodesSeen | lib/lib.js:183-188 | after a file of a seen directory, every seen directory holds its pages and title |
| LinkTree.NodesNew | lib/lib.js:170-188 | after the first file of a new directory, every seen directory holds its pages and title |
| LinkTree.Step | lib/lib.js:167-189 | one round keeps the tree invariant |
| LinkTree.ScanInv | lib/lib.js:167-189 | the scan succeeds and keeps the invariant over every prefix of the files |
| LinkTree.LinksTree | lib/lib.js:164-191 | under the stated conditions the scan succeeds, each directory's `pages` are its own files' entries in scan order, its `title` is its `_index.md`'s, and `_index.md` reads are the distinct directories in order of first use |
| LinkTree.LinksInSubdirsTree | lib/lib.js:164-191 | for `getLinksinSubdirs` over a directory listing under the same conditions: it succeeds, and each directory's `pages` and `title` are as in `LinkTree.LinksTree` |
| LinkTree.FirstOccurrencesFacts | lib/lib.js:170-179 | the `_index.md` files read are those of all directories, each read once |
| LinkTree.PagesForMembers | lib/lib.js:180-188 | a directory's pages are exactly the entries of the files in it |
| LinkTree.BareKept | lib/lib.js:152-162 | a `set` of a defined value keeps a directory an object without `pages`, both on the way to the set path and apart from it |
| LinkTree.BareAfterPush | lib/lib.js:183-188 | a push onto a seen directory's pages keeps every bare directory bare |
| LinkTree.BareAfterCreate | lib/lib.js:155-157 | a new node makes every directory above it an object without `pages`, and keeps the others bare |
| LinkTree.BareAfterNew | lib/lib.js:170-188 | the first file of a new directory leaves the root and every directory above a seen one without a file of its own an object with no `pages` |
| LinkTree.ScanBare | lib/lib.js:167-189 | under the conditions of `LinkTree.LinksTree`, after every prefix of the files the root and every directory above a seen one, without a file of its own, is an object with no `pages` |
| LinkTree.BareNodeFails | lib/lib.js:170-183 | a readable file whose directory is bare gets no node (the object is truthy) and its push throws |
| LinkTree.RootFileFails | lib/lib.js:168-183 | after any files that scan well, a file directly under "content/" makes the push throw, since the root has no `pages` |
| LinkTree.SubdirFirstFails | lib/lib.js:170-183 | after any files that scan well, a file of a directory above one already scanned, with no file of its own before, makes the push throw |

## Left out

- File-system access (`readdirSync`, `statSync`, `readFileSync`): directory listings and parsed files are inputs.
- `process.cwd()` is the `cwd` parameter. The `Directories` table is kept relative to it.
- `__dirname` in the paths `getAllFiles` returns is not modelled. Paths are `dirPath + "/" + name`.
- Path normalisation by `path.join`: segments such as `..` or `//` are not resolved. The `_index.md` path is built from the directory keys.
- `path.parse` on a base of `..`, on trailing slashes and on Windows paths is not modelled.
- The front-matter and TOML parsers (`gray-matter`, `@iarna/toml`) are foreign code: a file is its `(data, content)` parse.
- The commented-out helpers (`markdownToHtml`, `capitalize`, `generateCrumbs`) are not live code.
- `getPostSlugs` is the `listing` input of `getAllPosts`.
- JavaScript `Date` semantics: time zones, `getMonth`/`getDate`/`getFullYear`. `formatDate` takes the three components, and a date value is carried as its `toJSON` text.
- Built-in properties (`length`, prototype members such as `__proto__` or `toString`) are not modelled. A missing own property reads as `undefined`.
- Assigning a named (non-index) property of an array or a property of a date is reported as `Unrepresentable`. The model's values cannot hold such properties.
- Array indices of 2^32 - 1 and above are treated as indices.
- `JSON.stringify` of an object is `Unrepresentable`, since a map does not keep insertion order. Floating-point numbers and BigInt are left out: numbers are integers.
- Strings compare by code point rather than UTF-16 code unit. The two orders differ only beyond the Basic Multilingual Plane.
- Collection.SortPosts: the engine's sort algorithm is replaced by insertion sort. For equal dates the order may differ, and the source promises nothing there.
- Objects are unordered maps: the insertion order of keys, and the enumeration of integer-like names first, are not modelled. Nothing in the model enumerates an object.
- Values are trees with no shared objects, so aliasing (one object reachable along two paths, mutated once through `set`) is not modelled. The trees built here never share objects.
- PathTree.Set: returns the updated tree instead of the same mutated object.
- Links.Scan: does not state that every file of a successful scan was read. `LinkTree.LinksTree` covers that under its conditions.
- `components/Header.js` and `pages/terms-of-service.js` are page glue, not part of this model.

=== FILE: adjacency.dfy ===
/** `getNextPost` and `getPreviousPost`: the neighbour, in the sorted
    collection, of the last post whose `slug` is the one asked for. */
module Adjacency {
  import opened Results
  import opened Json
  import opened Posts
  import opened Collection

  /** What the callback leaves in `resultPost`: `null` when no post matched,
      `undefined` when the neighbour index is outside the array, or a post. */
  datatype Neighbour = NoMatch | OutOfRange | Found(post: Post)

  /** `post.slug === slug`. */
  predicate HasSlug(p: Post, slug: string) {
    "slug" in p && p["slug"] == VStr(slug)
  }

  /** The index of the last post with the slug, if any. */
  function LastMatch(posts: seq<Post>, slug: string): (r: Option<nat>)
    ensures r.None? <==> forall i :: 0 <= i < |posts| ==> !HasSlug(posts[i], slug)
    ensures r.Some? ==> r.value < |posts| && HasSlug(posts[r.value], slug)
    ensures r.Some? ==> forall i :: r.value < i < |posts| ==> !HasSlug(posts[i], slug)
  {
    if |posts| == 0 then None
    else if HasSlug(posts[|posts| - 1], slug) then Some(|posts| - 1)
    else LastMatch(posts[..|posts| - 1], slug)
  }

  /** `array[j]` as a neighbour. */
  function At(posts: seq<Post>, j: int): Neighbour {
    if 0 <= j < |posts| then Found(posts[j]) else OutOfRange
  }

  /** The neighbour at offset `delta` from the last post with the slug. */
  function NeighbourOf(posts: seq<Post>, slug: string, delta: int): Neighbour {
    match LastMatch(posts, slug)
    case None => NoMatch
    case Some(k) => At(posts, k + delta)
  }

  /** The `forEach` of `getNextPost` (`delta` = -1) and `getPreviousPost`
      (`delta` = +1): every post with the slug overwrites `resultPost`, so
      the last one wins. */
  method ScanNeighbour(posts: seq<Post>, slug: string, delta: int) returns (r: Neighbour)
    ensures r == NeighbourOf(posts, slug, delta)
    ensures r == NoMatch <==> forall i :: 0 <= i < |posts| ==> !HasSlug(posts[i], slug)
  {
    r := NoMatch;
    var i := 0;
    while i < |posts|
      invariant 0 <= i <= |posts|
      invariant r == match LastMatch(posts[..i], slug)
                     case None => NoMatch
                     case Some(k) => At(posts, k + delta)
    {
      if "slug" in posts[i] && posts[i]["slug"] == VStr(slug) {
        r := if 0 <= i + delta < |posts| then Found(posts[i + delta]) else OutOfRange;
      }
      assert posts[..i + 1][..i] == posts[..i];
      i := i + 1;
    }
    assert posts[..i] == posts;
  }

  /** The post just before (newer than) the last post with the slug. */
  function NextOf(posts: seq<Post>, slug: string): (r: Neighbour)
    ensures r.Found? <==> exists k :: 0 < k < |posts| && LastMatch(posts, slug) == Some(k)
    ensures r.Found? ==> r.post == posts[LastMatch(posts, slug).value - 1]
    ensures r.OutOfRange? <==> LastMatch(posts, slug) == Some(0)
  {
    NeighbourOf(posts, slug, -1)
  }

  /** The post just after (older than) the last post with the slug. */
  function PreviousOf(posts: seq<Post>, slug: string): (r: Neighbour)
    ensures r.Found? <==> exists k :: 0 <= k < |posts| - 1 && LastMatch(posts, slug) == Some(k)
    ensures r.Found? ==> r.post == posts[LastMatch(posts, slug).value + 1]
    ensures r.OutOfRange? <==> LastMatch(posts, slug) == Some(|posts| - 1)
  {
    NeighbourOf(posts, slug, 1)
  }

  /** `getNextPost(slug, fields, key)`: the collection is built afresh. */
  method GetNextPost(files: map<string, Doc>, listing: seq<string>, slug: string, fields: seq<string>, key: string)
    returns (r: Result<Neighbour>)
    ensures r.Err? <==> AllPosts(files, listing, fields, key).Err?
    ensures r.Ok? ==> r.value == NextOf(AllPosts(files, listing, fields, key).value, slug)
  {
    var all := AllPosts(files, listing, fields, key);
    if all.Err? {
      return Err(all.error);
    }
    var n := ScanNeighbour(all.value, slug, -1);
    return Ok(n);
  }

  /** `getPreviousPost(slug, fields, key)`. */
  method GetPreviousPost(files: map<string, Doc>, listing: seq<string>, slug: string, fields: seq<string>, key: string)
    returns (r: Result<Neighbour>)
    ensures r.Err? <==> AllPosts(files, listing, fields, key).Err?
    ensures r.Ok? ==> r.value == PreviousOf(AllPosts(files, listing, fields, key).value, slug)
  {
    var all := AllPosts(files, listing, fields, key);
    if all.Err? {
      return Err(all.error);
    }
    var n := ScanNeighbour(all.value, slug, 1);
    return Ok(n);
  }

  /** No two posts carry the same string slug. */
  ghost predicate UniqueSlugs(posts: seq<Post>) {
    forall i, j, s :: 0 <= i < j < |posts| && HasSlug(posts[i], s) ==> !HasSlug(posts[j], s)
  }

  /** With unique slugs, stepping to the previous post and then to its next
      post comes back to a post with the slug started from. */
  lemma PreviousThenNext(posts: seq<Post>, slug: string)
    requires UniqueSlugs(posts)
    requires PreviousOf(posts, slug).Found?
    requires "slug" in PreviousOf(posts, slug).post && PreviousOf(posts, slug).post["slug"].VStr?
    ensures NextOf(posts, PreviousOf(posts, slug).post["slug"].s).Found?
    ensures HasSlug(NextOf(posts, PreviousOf(posts, slug).post["slug"].s).post, slug)
  {
    var k := LastMatch(posts, slug).value;
    var t := posts[k + 1]["slug"].s;
    assert HasSlug(posts[k + 1], t);
  }

  /** A projected post holds no "slug" unless it was requested. */
  lemma UnrequestedSlugAbsent(files: map<string, Doc>, listing: seq<string>, fields: seq<string>, key: string, p: Post)
    requires "slug" !in fields
    requires PostsOf(files, listing, fields, key).Ok?
    requires p in PostsOf(files, listing, fields, key).value
    ensures "slug" !in p
  {
    var unsorted := PostsOf(files, listing, fields, key).value;
    var j :| 0 <= j < |unsorted| && unsorted[j] == p;
    assert p == GetPostBySlug(files, listing[j], fields, key).value;
  }

  /** Without "slug" among the requested fields no post has a slug, so
      neither neighbour is ever found. */
  lemma NoSlugFieldNoMatch(files: map<string, Doc>, listing: seq<string>, slug: string, fields: seq<string>, key: string)
    requires "slug" !in fields
    requires AllPosts(files, listing, fields, key).Ok?
    ensures NextOf(AllPosts(files, listing, fields, key).value, slug) == NoMatch
    ensures PreviousOf(AllPosts(files, listing, fields, key).value, slug) == NoMatch
  {
    var posts := AllPosts(files, listing, fields, key).value;
    forall i | 0 <= i < |posts|
      ensures !HasSlug(posts[i], slug)
    {
      assert posts[i] in multiset(posts);
      UnrequestedSlugAbsent(files, listing, fields, key, posts[i]);
    }
  }
}

=== FILE: collection.dfy ===
/** `getAllPosts`: every file of a collection directory projected with
    `getPostBySlug` and sorted newest first by comparing the date texts.

    The comparator `(post1, post2) => (post1.date > post2.date ? -1 : 1)`
    never reports a tie, so the order of posts with equal dates depends on
    the engine's sort; the model sorts by insertion with that comparator and
    promises nothing about ties. */
module Collection {
  import opened Results
  import opened Lexicographic
  import opened Posts

  /** The comparator of the source: negative when `p1` must come first. */
  function Compare(p1: Post, p2: Post): int {
    if Less(DateOf(p2), DateOf(p1)) then -1 else 1
  }

  /** Newest first: no post has an earlier date text than the one after it. */
  predicate SortedDesc(s: seq<Post>) {
    forall i :: 0 <= i < |s| - 1 ==> !Less(DateOf(s[i]), DateOf(s[i + 1]))
  }

  /** One insertion step: `p` goes before the first post the comparator
      puts after it. */
  function Insert(p: Post, s: seq<Post>): (r: seq<Post>)
    requires SortedDesc(s)
    ensures SortedDesc(r)
    ensures multiset(r) == multiset(s) + multiset{p}
    ensures |r| == |s| + 1
    ensures r[0] == p || (|s| > 0 && r[0] == s[0])
  {
    if |s| == 0 then [p]
    else if Compare(p, s[0]) < 0 then
      LessAsymmetric(DateOf(s[0]), DateOf(p));
      [p] + s
    else
      assert s == [s[0]] + s[1..];
      [s[0]] + Insert(p, s[1..])
  }

  /** The sort of `getAllPosts`: newest first, and a permutation of its
      input. */
  function SortPosts(s: seq<Post>): (r: seq<Post>)
    ensures SortedDesc(r)
    ensures multiset(r) == multiset(s)
    ensures |r| == |s|
  {
    if |s| == 0 then []
    else
      assert s == [s[0]] + s[1..];
      Insert(s[0], SortPosts(s[1..]))
  }

  /** A `map` whose callback may throw, given the callback's result for
      each element: the first error thrown ends it, otherwise every value,
      in order. */
  function AllOk<T>(rs: seq<Result<T>>): (r: Result<seq<T>>)
    ensures r.Ok? <==> forall i :: 0 <= i < |rs| ==> rs[i].Ok?
    ensures r.Ok? ==> |r.value| == |rs| && forall i :: 0 <= i < |rs| ==> rs[i] == Ok(r.value[i])
    ensures r.Err? ==> exists i :: 0 <= i < |rs| && rs[i] == Err(r.error) && forall j :: 0 <= j < i ==> rs[j].Ok?
  {
    if |rs| == 0 then Ok([])
    else
      var v :- rs[0];
      var rest :- AllOk(rs[1..]);
      Ok([v] + rest)
  }

  /** `slugs.map((slug) => getPostBySlug(slug, fields, key))`: the first
      file that fails stops the whole map. */
  function PostsOf(files: map<string, Doc>, listing: seq<string>, fields: seq<string>, key: string): (r: Result<seq<Post>>)
    ensures r.Ok? <==> forall i :: 0 <= i < |listing| ==> GetPostBySlug(files, listing[i], fields, key).Ok?
    ensures r.Ok? ==> |r.value| == |listing|
    ensures r.Ok? ==> forall i :: 0 <= i < |listing| ==> GetPostBySlug(files, listing[i], fields, key) == Ok(r.value[i])
    ensures r.Err? ==> exists i :: (0 <= i < |listing| && GetPostBySlug(files, listing[i], fields, key) == Err(r.error)
      && forall j :: 0 <= j < i ==> GetPostBySlug(files, listing[j], fields, key).Ok?)
  {
    var rs := seq(|listing|, i requires 0 <= i < |listing| => GetPostBySlug(files, listing[i], fields, key));
    assert forall i :: 0 <= i < |listing| ==> rs[i] == GetPostBySlug(files, listing[i], fields, key);
    AllOk(rs)
  }

  /** `getAllPosts(fields, key)`, the directory listing of the collection
      given as `listing`. Listing a key with no directory throws. */
  function AllPosts(files: map<string, Doc>, listing: seq<string>, fields: seq<string>, key: string): (r: Result<seq<Post>>)
    ensures key !in Directories ==> r == Err(TypeError)
    ensures r.Ok? ==> SortedDesc(r.value)
    ensures r.Ok? ==> PostsOf(files, listing, fields, key).Ok?
    ensures r.Ok? ==> multiset(r.value) == multiset(PostsOf(files, listing, fields, key).value)
    ensures key in Directories && PostsOf(files, listing, fields, key).Ok? ==> r.Ok?
  {
    if key !in Directories then Err(TypeError)
    else
      var posts :- PostsOf(files, listing, fields, key);
      Ok(SortPosts(posts))
  }

  /** Sorting a non-empty sequence inserts its head into the sorted tail. */
  lemma SortCons(p: Post, s: seq<Post>)
    ensures SortPosts([p] + s) == Insert(p, SortPosts(s))
  {
    assert ([p] + s)[1..] == s;
  }

  /** A post newer than the head goes in front. */
  lemma InsertFront(p: Post, s: seq<Post>)
    requires SortedDesc(s) && |s| > 0 && Less(DateOf(s[0]), DateOf(p))
    ensures Insert(p, s) == [p] + s
  {
  }

  /** A post not newer than the head goes after it. */
  lemma InsertPast(p: Post, s: seq<Post>)
    requires SortedDesc(s) && |s| > 0 && !Less(DateOf(s[0]), DateOf(p))
    ensures Insert(p, s) == [s[0]] + Insert(p, s[1..])
  {
  }

  /** Three posts whose dates are in increasing order as listed come out
      newest first. */
  lemma ThreeDates(jan: Post, mar: Post, feb: Post)
    requires Less(DateOf(jan), DateOf(feb)) && Less(DateOf(feb), DateOf(mar))
    ensures SortPosts([jan, mar, feb]) == [mar, feb, jan]
  {
    LessTransitive(DateOf(jan), DateOf(feb), DateOf(mar));
    LessAsymmetric(DateOf(jan), DateOf(mar));
    LessAsymmetric(DateOf(jan), DateOf(feb));
    var one := [feb];
    SortCons(feb, []);
    assert SortPosts(one) == one;
    var two := [mar, feb];
    SortCons(mar, one);
    InsertFront(mar, one);
    assert SortPosts([mar] + one) == two;
    InsertPast(jan, two);
    assert two[1..] == one;
    InsertPast(jan, one);
    assert one[1..] == [];
    assert Insert(jan, one) == [feb, jan];
    SortCons(jan, two);
    assert [jan] + two == [jan, mar, feb];
  }

  /** Posts dated 2021-01-01, 2021-03-01 and 2021-02-01 are indexed March,
      February, January. */
  lemma ThreeDatesExample(jan: Post, mar: Post, feb: Post)
    requires DateOf(jan) == "2021-01-01" && DateOf(mar) == "2021-03-01" && DateOf(feb) == "2021-02-01"
    ensures SortPosts([jan, mar, feb]) == [mar, feb, jan]
  {
    assert DiffersLowerAt(DateOf(feb), DateOf(mar), 6);
    PrefixOrDiffersMeansLess(DateOf(feb), DateOf(mar), 6);
    assert DiffersLowerAt(DateOf(jan), DateOf(feb), 6);
    PrefixOrDiffersMeansLess(DateOf(jan), DateOf(feb), 6);
    ThreeDates(jan, mar, feb);
  }
}

=== FILE: dates.dfy ===
/** `formatDate`: "<Month> <day>, <year>" from a twelve-name table, with the
    day and year in plain decimal (no padding).

    A JavaScript `Date` is replaced by the three components its `getMonth`
    (0 for January), `getDate` and `getFullYear` return. */
module Dates {
  import opened Results
  import opened Decimal
  import opened Text

  const MonthNames: seq<string> := [
    "January", "February", "March", "April", "May", "June",
    "July", "August", "September", "October", "November", "December"
  ]

  /** `formatDate(d)`. The text determines the date: reading it back gives
      the year, month and day it was made from. */
  function FormatDate(year: int, month: nat, day: int): (r: string)
    requires month < 12
    ensures ParseFormatted(r) == Some((year, month, day))
  {
    FormatParseRoundTrip(year, month, day);
    MonthNames[month] + " " + IntToDec(day) + ", " + IntToDec(year)
  }

  /** Reading a decimal integer written by `IntToDec`. */
  function ParseInt(t: string): Option<int> {
    if |t| >= 1 && t[0] == '-' then
      (if IsCanonical(t[1..]) && t[1..] != "0" then Some(-(DecToNat(t[1..]) as int)) else None)
    else if IsCanonical(t) then Some(DecToNat(t) as int)
    else None
  }

  lemma ParseNatText(n: nat)
    ensures ParseInt(NatToDec(n)) == Some(n)
  {
    var t := NatToDec(n);
    assert IsDigit(t[0]);
    NatToDecRoundTrip(n);
  }

  lemma ParseNegativeText(n: nat)
    requires n > 0
    ensures ParseInt("-" + NatToDec(n)) == Some(-(n as int))
  {
    var t := "-" + NatToDec(n);
    assert t[0] == '-' && t[1..] == NatToDec(n);
    NatToDecRoundTrip(n);
  }

  lemma ParseIntToDec(i: int)
    ensures ParseInt(IntToDec(i)) == Some(i)
  {
    if i < 0 {
      ParseNegativeText(-i);
    } else {
      ParseNatText(i);
    }
  }

  /** The position of the first entry of `table` equal to `name`. */
  function Find(table: seq<string>, name: string): (r: Option<nat>)
    ensures r.Some? ==> r.value < |table| && table[r.value] == name
    ensures r.Some? ==> forall j :: 0 <= j < r.value ==> table[j] != name
    ensures r.None? ==> name !in table
  {
    if |table| == 0 then None
    else if table[0] == name then Some(0)
    else
      match Find(table[1..], name)
      case None => None
      case Some(i) => Some(i + 1)
  }

  function MonthIndex(name: string): Option<nat> {
    Find(MonthNames, name)
  }

  /** The month names are twelve different words without spaces. */
  lemma MonthNameFacts(m: nat)
    requires m < 12
    ensures ' ' !in MonthNames[m]
    ensures MonthIndex(MonthNames[m]) == Some(m)
  {
    assert forall i :: 0 <= i < 12 ==> ' ' !in MonthNames[i];
    assert forall i, j :: 0 <= i < j < 12 ==> MonthNames[i] != MonthNames[j];
  }

  /** Reading "<day>, <year>" back into (day, year). */
  function ParseDayYear(rest: string): Option<(int, int)> {
    match FirstIndex(rest, ',')
    case None => None
    case Some(q) =>
      if q + 2 <= |rest| && rest[q + 1] == ' ' then
        match (ParseInt(rest[..q]), ParseInt(rest[q + 2..]))
        case (Some(d), Some(y)) => Some((d, y))
        case _ => None
      else None
  }

  /** Reading "<Month> <day>, <year>" back into (year, month, day). */
  function ParseFormatted(s: string): Option<(int, nat, int)> {
    match FirstIndex(s, ' ')
    case None => None
    case Some(p) =>
      match (MonthIndex(s[..p]), ParseDayYear(s[p + 1..]))
      case (Some(m), Some((d, y))) => Some((y, m, d))
      case _ => None
  }

  lemma {:induction false} DecHasNoSeparator(i: int)
    ensures ',' !in IntToDec(i) && ' ' !in IntToDec(i)
  {
    var t := IntToDec(i);
    if i < 0 {
      assert t == "-" + t[1..];
    }
  }

  lemma DayYearRoundTrip(day: int, year: int)
    ensures ParseDayYear(IntToDec(day) + ", " + IntToDec(year)) == Some((day, year))
  {
    var dd, yy := IntToDec(day), IntToDec(year);
    var rest := dd + ", " + yy;
    DecHasNoSeparator(day);
    assert rest == dd + [','] + (" " + yy);
    FirstIndexAfter(dd, ',', " " + yy);
    assert rest[..|dd|] == dd && rest[|dd| + 2..] == yy && rest[|dd| + 1] == ' ';
    ParseIntToDec(day);
    ParseIntToDec(year);
  }

  /** Formatting then reading back gives the date components. */
  lemma FormatParseRoundTrip(year: int, month: nat, day: int)
    requires month < 12
    ensures ParseFormatted(MonthNames[month] + " " + IntToDec(day) + ", " + IntToDec(year)) == Some((year, month, day))
  {
    var name := MonthNames[month];
    var rest := IntToDec(day) + ", " + IntToDec(year);
    var s := name + " " + IntToDec(day) + ", " + IntToDec(year);
    MonthNameFacts(month);
    assert s == name + [' '] + rest;
    FirstIndexAfter(name, ' ', rest);
    assert s[..|name|] == name && s[|name| + 1..] == rest;
    DayYearRoundTrip(day, year);
  }
}

=== FILE: decimal.dfy ===
/** Decimal text of integers, as JavaScript's `String(n)` writes a safe
    integer, and the inverse reading used for array index property names. */
module Decimal {

  predicate IsDigit(c: char) {
    '0' <= c <= '9'
  }

  predicate AllDigits(s: string) {
    forall i :: 0 <= i < |s| ==> IsDigit(s[i])
  }

  function DigitChar(d: nat): (c: char)
    requires d < 10
    ensures IsDigit(c)
  {
    (('0' as int) + d) as char
  }

  function DigitValue(c: char): (d: nat)
    requires IsDigit(c)
    ensures d < 10 && DigitChar(d) == c
  {
    (c as int) - ('0' as int)
  }

  /** The canonical decimal form: digits only, no leading zero except "0". */
  predicate IsCanonical(s: string) {
    |s| >= 1 && AllDigits(s) && (s[0] == '0' ==> |s| == 1)
  }

  /** `String(n)` for a non-negative integer. */
  function NatToDec(n: nat): (s: string)
    ensures IsCanonical(s)
    ensures s == "0" <==> n == 0
  {
    if n < 10 then [DigitChar(n)]
    else NatToDec(n / 10) + [DigitChar(n % 10)]
  }

  /** `String(i)` for any integer: a minus sign, then the magnitude. */
  function IntToDec(i: int): (s: string)
    ensures |s| >= 1
    ensures s[0] == '-' <==> i < 0
    ensures i >= 0 ==> IsCanonical(s)
    ensures i < 0 ==> IsCanonical(s[1..]) && s[1..] != "0"
  {
    if i < 0 then "-" + NatToDec(-i) else NatToDec(i)
  }

  function DecToNat(s: string): nat
    requires AllDigits(s)
  {
    if |s| == 0 then 0
    else DecToNat(s[..|s| - 1]) * 10 + DigitValue(s[|s| - 1])
  }

  /** Reading back what `NatToDec` wrote gives the number. */
  lemma {:induction false} NatToDecRoundTrip(n: nat)
    ensures DecToNat(NatToDec(n)) == n
  {
    if n >= 10 {
      var s := NatToDec(n);
      assert s[..|s| - 1] == NatToDec(n / 10);
      NatToDecRoundTrip(n / 10);
    }
  }

  lemma {:induction false} LeadingNonZeroPositive(s: string)
    requires IsCanonical(s) && s[0] != '0'
    ensures DecToNat(s) >= 1
  {
    if |s| > 1 {
      var p := s[..|s| - 1];
      assert p[0] == s[0];
      LeadingNonZeroPositive(p);
    }
  }

  /** Every canonical decimal string is the text of exactly one number. */
  lemma {:induction false} CanonicalRoundTrip(s: string)
    requires IsCanonical(s)
    ensures NatToDec(DecToNat(s)) == s
  {
    if |s| > 1 {
      var p := s[..|s| - 1];
      assert p[0] == s[0];
      LeadingNonZeroPositive(p);
      CanonicalRoundTrip(p);
      var n := DecToNat(s);
      assert n / 10 == DecToNat(p) && n % 10 == DigitValue(s[|s| - 1]);
      assert s == p + [s[|s| - 1]];
    }
  }

  /** Distinct numbers have distinct decimal texts. */
  lemma NatToDecInjective(m: nat, n: nat)
    requires NatToDec(m) == NatToDec(n)
    ensures m == n
  {
    NatToDecRoundTrip(m);
    NatToDecRoundTrip(n);
  }
}

=== FILE: files.dfy ===
/** `getAllFiles`: the recursive listing of every file under a directory.

    The file system is replaced by the listing it would return: a directory
    is the sequence of its entries in `readdirSync` order, and an entry is a
    file or a sub-directory with its own entries. */
module Files {

  datatype Entry = File(name: string) | Dir(name: string, children: seq<Entry>)

  /** The path pushed for a file `name` found in `dirPath`. */
  function FilePath(dirPath: string, name: string): string {
    dirPath + "/" + name
  }

  /** The number of files (not directories) in a listing, at any depth. */
  function LeafCount(entries: seq<Entry>): nat
    decreases entries
  {
    if |entries| == 0 then 0
    else
      (match entries[0]
       case File(_) => 1
       case Dir(_, children) => LeafCount(children))
      + LeafCount(entries[1..])
  }

  /** Reference listing: the paths of the files of `entries` in depth-first
      order, each sub-directory's files standing where the sub-directory
      stands, and no directory paths at all. */
  function Leaves(dirPath: string, entries: seq<Entry>): seq<string>
    decreases entries
  {
    if |entries| == 0 then []
    else
      (match entries[0]
       case File(name) => [FilePath(dirPath, name)]
       case Dir(name, children) => Leaves(dirPath + "/" + name, children))
      + Leaves(dirPath, entries[1..])
  }

  /** `getAllFiles(dirPath, arrayOfFiles)` over the listing `entries` of
      `dirPath`: the accumulator `acc` is kept as a prefix and one path per
      file is added. */
  function AllFiles(dirPath: string, entries: seq<Entry>, acc: seq<string>): (r: seq<string>)
    ensures |r| == |acc| + LeafCount(entries)
    ensures r[..|acc|] == acc
    decreases entries
  {
    if |entries| == 0 then acc
    else
      var acc' :=
        match entries[0]
        case Dir(name, children) => AllFiles(dirPath + "/" + name, children, acc)
        case File(name) => acc + [FilePath(dirPath, name)];
      AllFiles(dirPath, entries[1..], acc')
  }

  /** `getAllFiles(dirPath)`: the second argument left out starts from `[]`. */
  function ListAll(dirPath: string, entries: seq<Entry>): (r: seq<string>)
    ensures r == Leaves(dirPath, entries)
  {
    AllFilesIsAccPlusLeaves(dirPath, entries, []);
    AllFiles(dirPath, entries, [])
  }

  /** The accumulating listing is the accumulator followed by the reference
      listing. */
  lemma {:induction false} AllFilesIsAccPlusLeaves(dirPath: string, entries: seq<Entry>, acc: seq<string>)
    ensures AllFiles(dirPath, entries, acc) == acc + Leaves(dirPath, entries)
    decreases entries
  {
    if |entries| > 0 {
      var rest := entries[1..];
      match entries[0] {
        case File(name) =>
          var acc' := acc + [FilePath(dirPath, name)];
          assert AllFiles(dirPath, entries, acc) == AllFiles(dirPath, rest, acc');
          assert Leaves(dirPath, entries) == [FilePath(dirPath, name)] + Leaves(dirPath, rest);
          AllFilesIsAccPlusLeaves(dirPath, rest, acc');
        case Dir(name, children) =>
          var sub := dirPath + "/" + name;
          AllFilesIsAccPlusLeaves(sub, children, acc);
          var acc' := AllFiles(sub, children, acc);
          assert AllFiles(dirPath, entries, acc) == AllFiles(dirPath, rest, acc');
          assert Leaves(dirPath, entries) == Leaves(sub, children) + Leaves(dirPath, rest);
          AllFilesIsAccPlusLeaves(dirPath, rest, acc');
      }
    }
  }

  /** The reference listing has one path per file. */
  lemma {:induction false} LeavesCount(dirPath: string, entries: seq<Entry>)
    ensures |Leaves(dirPath, entries)| == LeafCount(entries)
    decreases entries
  {
    if |entries| > 0 {
      match entries[0] {
        case Dir(name, children) => LeavesCount(dirPath + "/" + name, children);
        case File(_) =>
      }
      LeavesCount(dirPath, entries[1..]);
    }
  }

  /** A file listed directly in `dirPath` appears in the listing as its path,
      and every listed path lies under `dirPath`. */
  lemma {:induction false} LeavesUnderRoot(dirPath: string, entries: seq<Entry>)
    ensures forall i :: 0 <= i < |entries| && entries[i].File? ==>
      FilePath(dirPath, entries[i].name) in Leaves(dirPath, entries)
    ensures forall p :: p in Leaves(dirPath, entries) ==>
      |p| >= |dirPath| + 1 && p[..|dirPath| + 1] == dirPath + "/"
    decreases entries
  {
    if |entries| > 0 {
      LeavesUnderRoot(dirPath, entries[1..]);
      var rest := Leaves(dirPath, entries[1..]);
      match entries[0]
      case Dir(name, children) =>
        var sub := dirPath + "/" + name;
        LeavesUnderRoot(sub, children);
        forall p | p in Leaves(sub, children)
          ensures |p| >= |dirPath| + 1 && p[..|dirPath| + 1] == dirPath + "/"
        {
          assert p[..|sub| + 1][..|dirPath| + 1] == p[..|dirPath| + 1];
          assert sub[..|dirPath| + 1] == dirPath + "/";
        }
        forall i | 0 <= i < |entries| && entries[i].File?
          ensures FilePath(dirPath, entries[i].name) in Leaves(dirPath, entries)
        {
          assert entries[i] == entries[1..][i - 1];
        }
      case File(name) =>
        assert FilePath(dirPath, name)[..|dirPath| + 1] == dirPath + "/";
        assert Leaves(dirPath, entries) == [FilePath(dirPath, name)] + rest;
        forall i | 0 <= i < |entries| && entries[i].File?
          ensures FilePath(dirPath, entries[i].name) in Leaves(dirPath, entries)
        {
          if i > 0 {
            assert entries[i] == entries[1..][i - 1];
          }
        }
    }
  }
}

=== FILE: json.dfy ===
/** The JavaScript values the indexing helpers handle: parsed front-matter
    values (strings, integers, booleans, dates, arrays, tables), the plain
    objects and arrays the helpers build, and `undefined`/`null`. Property
    reads and writes follow JavaScript's rules for these values. */
module Json {
  import opened Results
  import opened Decimal

  /** A path element of `get`/`set`: a string or a number. */
  datatype Key = KStr(s: string) | KNum(n: nat)

  /** `VUndef` is `undefined` (also an array hole); `VDate` is a date object,
      carried as the text its `toJSON` returns; `VObj` is a plain object,
      its own enumerable properties as a map. */
  datatype Value =
    | VUndef
    | VNull
    | VBool(b: bool)
    | VInt(i: int)
    | VStr(s: string)
    | VDate(iso: string)
    | VArr(a: seq<Value>)
    | VObj(m: map<string, Value>)

  /** JavaScript truthiness: `undefined`, `null`, `false`, `0` and `""` are
      falsy; every object (arrays and dates included, even empty ones) is
      truthy. */
  predicate Truthy(v: Value) {
    match v
    case VUndef => false
    case VNull => false
    case VBool(b) => b
    case VInt(i) => i != 0
    case VStr(s) => s != ""
    case VDate(_) => true
    case VArr(_) => true
    case VObj(_) => true
  }

  /** The property name a key denotes: `obj[3]` is `obj["3"]`. */
  function PropName(k: Key): string {
    match k
    case KStr(s) => s
    case KNum(n) => NatToDec(n)
  }

  /** The element index a property name denotes on an array or a string,
      if it is an array index at all. */
  function ArrayIndex(name: string): Option<nat> {
    if IsCanonical(name) then Some(DecToNat(name)) else None
  }

  lemma NumericKeyIndex(n: nat)
    ensures ArrayIndex(PropName(KNum(n))) == Some(n)
  {
    NatToDecRoundTrip(n);
  }

  /** An own property of an object, `undefined` when absent. */
  function Member(m: map<string, Value>, name: string): Value {
    if name in m then m[name] else VUndef
  }

  /** `t[k]`: reading a property. Reading from `null` or `undefined` throws;
      every other missing property reads as `undefined`. */
  function ReadProp(t: Value, k: Key): (r: Result<Value>)
    ensures r.Err? <==> t.VUndef? || t.VNull?
    ensures r.Err? ==> r.error == TypeError
    ensures t.VObj? ==> r == Ok(Member(t.m, PropName(k)))
    ensures r.Ok? && r.value != VUndef ==> t.VObj? || t.VArr? || t.VStr?
  {
    var name := PropName(k);
    match t
    case VUndef => Err(TypeError)
    case VNull => Err(TypeError)
    case VObj(m) => Ok(Member(m, name))
    case VArr(a) =>
      (match ArrayIndex(name)
       case Some(i) => if i < |a| then Ok(a[i]) else Ok(VUndef)
       case None => Ok(VUndef))
    case VStr(s) =>
      (match ArrayIndex(name)
       case Some(i) => if i < |s| then Ok(VStr([s[i]])) else Ok(VUndef)
       case None => Ok(VUndef))
    case _ => Ok(VUndef)
  }

  function Holes(n: nat): (h: seq<Value>)
    ensures |h| == n && forall i :: 0 <= i < n ==> h[i] == VUndef
  {
    seq(n, _ => VUndef)
  }

  /** `t[k] = v` in strict mode. Objects take any property; arrays take index
      properties, growing with holes when the index is past the end;
      assigning a property of a primitive, `null` or `undefined` throws. */
  function Assign(t: Value, k: Key, v: Value): (r: Result<Value>)
    ensures t.VObj? ==> r.Ok? && r.value.VObj?
    ensures r.Ok? ==> t.VObj? || t.VArr?
    ensures r.Ok? && t.VArr? ==> r.value.VArr?
    ensures t.VUndef? || t.VNull? || t.VBool? || t.VInt? || t.VStr? ==> r == Err(TypeError)
    // the value assigned is what a later read of the same key returns
    ensures r.Ok? ==> ReadProp(r.value, k) == Ok(v)
  {
    var name := PropName(k);
    match t
    case VObj(m) => Ok(VObj(m[name := v]))
    case VArr(a) =>
      (match ArrayIndex(name)
       case Some(i) =>
         if i < |a| then Ok(VArr(a[i := v]))
         else Ok(VArr(a + Holes(i - |a|) + [v]))
       case None => Err(Unrepresentable))
    case VDate(_) => Err(Unrepresentable)
    case _ => Err(TypeError)
  }

  /** Distinct array index names denote distinct indices. */
  lemma ArrayIndexInjective(x: string, y: string)
    requires ArrayIndex(x).Some? && ArrayIndex(x) == ArrayIndex(y)
    ensures x == y
  {
    CanonicalRoundTrip(x);
    CanonicalRoundTrip(y);
  }

  /** An assignment changes no property other than the one it names. */
  lemma AssignFrame(t: Value, k: Key, v: Value, k': Key)
    requires Assign(t, k, v).Ok?
    requires PropName(k') != PropName(k)
    ensures ReadProp(Assign(t, k, v).value, k') == ReadProp(t, k')
  {
    var x, y := PropName(k'), PropName(k);
    if t.VArr? && ArrayIndex(x).Some? && ArrayIndex(x) == ArrayIndex(y) {
      ArrayIndexInjective(x, y);
    }
  }
}

=== FILE: lexicographic.dfy ===
/** JavaScript's `<` on two strings: character by character, a proper prefix
    before any longer string. (Dafny's own `<` on sequences means "proper
    prefix" only.) */
module Lexicographic {

  predicate Less(a: string, b: string)
    decreases |a|
  {
    |b| > 0 && (|a| == 0 || a[0] < b[0] || (a[0] == b[0] && Less(a[1..], b[1..])))
  }

  /** Reference reading: `a` is a proper prefix of `b`, or the two agree up
      to a position where `a` has the smaller character. */
  predicate DiffersLowerAt(a: string, b: string, i: nat) {
    i < |a| && i < |b| && a[..i] == b[..i] && a[i] < b[i]
  }

  predicate ProperPrefix(a: string, b: string) {
    |a| < |b| && b[..|a|] == a
  }

  lemma {:induction false} LessMeansPrefixOrDiffers(a: string, b: string)
    requires Less(a, b)
    ensures ProperPrefix(a, b) || exists i :: DiffersLowerAt(a, b, i)
    decreases |a|
  {
    if |a| > 0 && a[0] == b[0] && !(a[0] < b[0]) {
      LessMeansPrefixOrDiffers(a[1..], b[1..]);
      if ProperPrefix(a[1..], b[1..]) {
        assert b[..|a|] == [b[0]] + b[1..][..|a| - 1];
        assert a == [a[0]] + a[1..];
      } else {
        var i: nat :| DiffersLowerAt(a[1..], b[1..], i);
        assert a[..i + 1] == [a[0]] + a[1..][..i];
        assert b[..i + 1] == [b[0]] + b[1..][..i];
        assert DiffersLowerAt(a, b, i + 1);
      }
    } else if |a| > 0 {
      assert DiffersLowerAt(a, b, 0);
    }
  }

  lemma {:induction false} PrefixOrDiffersMeansLess(a: string, b: string, i: nat)
    requires ProperPrefix(a, b) || DiffersLowerAt(a, b, i)
    ensures Less(a, b)
    decreases |a|
  {
    if |a| > 0 {
      if ProperPrefix(a, b) {
        assert b[..|a|][0] == b[0];
        assert b[1..][..|a| - 1] == b[..|a|][1..];
        PrefixOrDiffersMeansLess(a[1..], b[1..], 0);
      } else if i > 0 {
        assert a[..i][0] == a[0] && b[..i][0] == b[0];
        assert a[1..][..i - 1] == a[..i][1..];
        assert b[1..][..i - 1] == b[..i][1..];
        PrefixOrDiffersMeansLess(a[1..], b[1..], i - 1);
      }
    }
  }

  /** `Less` is exactly the lexicographic order of the reference reading. */
  lemma LessIff(a: string, b: string)
    ensures Less(a, b) <==> ProperPrefix(a, b) || exists i :: DiffersLowerAt(a, b, i)
  {
    if Less(a, b) {
      LessMeansPrefixOrDiffers(a, b);
    } else if ProperPrefix(a, b) {
      PrefixOrDiffersMeansLess(a, b, 0);
    } else if i :| DiffersLowerAt(a, b, i) {
      PrefixOrDiffersMeansLess(a, b, i);
    }
  }

  lemma {:induction false} LessIrreflexive(a: string)
    ensures !Less(a, a)
    decreases |a|
  {
    if |a| > 0 {
      LessIrreflexive(a[1..]);
    }
  }

  lemma {:induction false} LessTransitive(a: string, b: string, c: string)
    requires Less(a, b) && Less(b, c)
    ensures Less(a, c)
    decreases |a|
  {
    if |a| > 0 && a[0] == b[0] && b[0] == c[0] {
      LessTransitive(a[1..], b[1..], c[1..]);
    }
  }

  /** Any two different strings are ordered one way or the other. */
  lemma {:induction false} LessTotal(a: string, b: string)
    requires a != b
    ensures Less(a, b) || Less(b, a)
    decreases |a|
  {
    if |a| > 0 && |b| > 0 && a[0] == b[0] {
      assert a == [a[0]] + a[1..] && b == [b[0]] + b[1..];
      LessTotal(a[1..], b[1..]);
    }
  }

  lemma LessAsymmetric(a: string, b: string)
    requires Less(a, b)
    ensures !Less(b, a)
  {
    if Less(b, a) {
      LessTransitive(a, b, a);
      LessIrreflexive(a);
    }
  }
}

=== FILE: links.dfy ===
/** `getLinksinSubdirs`: the navigation tree of a documentation directory.

    Every file found below the directory is placed by the directories on its
    path after "content/": each directory becomes a nested object
    `{ title, pages }` whose `title` comes from the directory's `_index.md`,
    and the file is pushed onto the `pages` of its own directory as
    `{ title, base, slug, weight }`.

    File reads become lookups in a map from path to parsed file, as in
    `getPostBySlug`; the working directory that `process.cwd()` returns is a
    parameter. */
module Links {
  import opened Results
  import opened Json
  import opened PathTree
  import opened Text
  import opened Files
  import opened Posts

  predicate OccursAt(s: string, pat: string, i: nat) {
    i + |pat| <= |s| && s[i..i + |pat|] == pat
  }

  /** `s.indexOf(pat)`: the first position where `pat` occurs in `s` at or
      after `from`, or -1. */
  function IndexFrom(s: string, pat: string, from: nat): (r: int)
    ensures r == -1 || (from <= r && OccursAt(s, pat, r))
    ensures r != -1 ==> forall i :: from <= i < r ==> !OccursAt(s, pat, i)
    ensures r == -1 ==> forall i :: from <= i ==> !OccursAt(s, pat, i)
    decreases |s| - from
  {
    if from + |pat| > |s| then -1
    else if OccursAt(s, pat, from) then from
    else IndexFrom(s, pat, from + 1)
  }

  /** `e.substr(e.indexOf("content/") + 7)`: the path from the slash after
      the first "content"; when "content/" does not occur, everything from
      the seventh character on. */
  function RelPath(e: string): (r: string)
    ensures IndexFrom(e, "content/", 0) >= 0 ==> "content" + r == e[IndexFrom(e, "content/", 0)..]
    ensures IndexFrom(e, "content/", 0) == -1 ==> r == (if |e| <= 6 then "" else e[6..])
  {
    var i := IndexFrom(e, "content/", 0);
    if i + 7 >= |e| then ""
    else
      assert i >= 0 ==> e[i..] == e[i..i + 8][..7] + e[i + 7..];
      e[i + 7..]
  }

  /** What `path.parse` returns that the tree uses. */
  datatype Parsed = Parsed(dir: string, base: string, name: string)

  /** The name of a file without its extension: the text before the last
      dot, unless that dot starts the name. */
  function StripExt(base: string): (r: string)
    ensures |r| <= |base| && base[..|r|] == r
    ensures r != base ==> r != "" && base[|r|] == '.' && '.' !in base[|r| + 1..]
  {
    match LastIndex(base, '.')
    case Some(d) => if d > 0 then base[..d] else base
    case None => base
  }

  /** `path.parse(p)` on a POSIX path: the directory is everything before
      the last slash ("/" when that slash is the first character), the base
      everything after it. */
  function ParsePath(p: string): (r: Parsed)
    ensures '/' !in r.base
    ensures r.dir == "" ==> r.base == p
    ensures r.dir != "" ==> p == r.dir + "/" + r.base || (r.dir == "/" && p == "/" + r.base)
    ensures r.name == StripExt(r.base)
  {
    match LastIndex(p, '/')
    case None => Parsed("", p, StripExt(p))
    case Some(k) =>
      var base := p[k + 1..];
      assert p == p[..k] + "/" + base;
      Parsed(if k == 0 then "/" else p[..k], base, StripExt(base))
  }

  /** `dir.split("/").filter((e) => e !== "")`. */
  function Segments(s: string): (r: seq<string>)
    ensures forall i :: 0 <= i < |r| ==> r[i] != "" && '/' !in r[i]
    decreases |s|
  {
    match FirstIndex(s, '/')
    case None => if s == "" then [] else [s]
    case Some(k) => (if k == 0 then [] else [s[..k]]) + Segments(s[k + 1..])
  }

  /** The directory path of a list of segments: "/a/b" for ["a", "b"]. */
  function Join(segs: seq<string>): string {
    if |segs| == 0 then "" else "/" + segs[0] + Join(segs[1..])
  }

  /** A directory name: not empty, no slash. */
  predicate DirName(x: string) {
    x != "" && '/' !in x
  }

  /** A leading slash adds no segment. */
  lemma SegmentsDropSlash(x: string)
    ensures Segments("/" + x) == Segments(x)
  {
    assert "/" + x == [] + ['/'] + x;
    FirstIndexAfter([], '/', x);
    assert ("/" + x)[1..] == x;
  }

  lemma SegmentsPrepend(seg: string, rest: string)
    requires DirName(seg)
    requires rest == "" || rest[0] == '/'
    ensures Segments(seg + rest) == [seg] + Segments(rest)
  {
    if rest == "" {
      assert seg + rest == seg;
    } else {
      assert seg + rest == seg + ['/'] + rest[1..];
      FirstIndexAfter(seg, '/', rest[1..]);
      assert (seg + rest)[..|seg|] == seg && (seg + rest)[|seg| + 1..] == rest[1..];
      assert rest == "/" + rest[1..];
      SegmentsDropSlash(rest[1..]);
    }
  }

  /** Splitting a joined directory path gives the names back. */
  lemma {:induction false} SegmentsOfJoin(segs: seq<string>)
    requires forall i :: 0 <= i < |segs| ==> DirName(segs[i])
    ensures Segments(Join(segs)) == segs
  {
    if |segs| > 0 {
      var rest := Join(segs[1..]);
      SegmentsOfJoin(segs[1..]);
      SegmentsPrepend(segs[0], rest);
      assert Join(segs) == "/" + (segs[0] + rest);
      SegmentsDropSlash(segs[0] + rest);
      assert segs == [segs[0]] + segs[1..];
    }
  }

  /** The object keys of a file: the directories between "content/" and the
      file. */
  function FileKeys(e: string): seq<string> {
    Segments(ParsePath(RelPath(e)).dir)
  }

  /** A list of directory names as a `get`/`set` path. */
  function StrKeys(p: seq<string>): (r: seq<Key>)
    ensures |r| == |p|
    ensures forall i :: 0 <= i < |p| ==> r[i] == KStr(p[i])
  {
    seq(|p|, i requires 0 <= i < |p| => KStr(p[i]))
  }

  /** `join(process.cwd(), "/content", parsed.dir, "_index.md")`. */
  function IndexPath(cwd: string, keys: seq<string>): string {
    cwd + "/content" + Join(keys) + "/_index.md"
  }

  /** `data?.weight ?? 0`. */
  function Weight(data: map<string, Value>): (r: Value)
    ensures r != VUndef && r != VNull
    ensures Member(data, "weight") !in {VUndef, VNull} ==> r == data["weight"]
    ensures Member(data, "weight") in {VUndef, VNull} ==> r == VInt(0)
  {
    var w := Member(data, "weight");
    if w == VUndef || w == VNull then VInt(0) else w
  }

  /** The entry pushed for a file. */
  function PageItem(data: map<string, Value>, p: Parsed): Value {
    VObj(map["title" := Member(data, "title"), "base" := VStr(p.base), "slug" := VStr(p.name), "weight" := Weight(data)])
  }

  /** The node created for a directory from its `_index.md`. */
  function DirNode(index: Doc): Value {
    VObj(map["title" := Member(index.data, "title"), "pages" := VArr([])])
  }

  /** The tree being built, and the directories whose `_index.md` was read,
      in order. */
  datatype Build = Build(tree: Value, indexReads: seq<seq<string>>)

  /** A file with what `parse` and the key split make of its path. */
  datatype Located = Located(path: string, keys: seq<string>, parsed: Parsed)

  /** The ensures only lets proofs use a located file's path and keys
      without unfolding the path parsing. */
  function Locate(e: string): (r: Located)
    ensures r.path == e && r.keys == FileKeys(e)
  {
    Located(e, FileKeys(e), ParsePath(RelPath(e)))
  }

  /** The first half of a round: a directory with no node yet (`get`
      returns a falsy value) gets one from its `_index.md`. */
  function EnsureNode(cwd: string, docs: map<string, Doc>, b: Build, keys: seq<string>): (r: Result<Build>)
    ensures r.Ok? && b.tree.VObj? ==> r.value.tree.VObj?
    ensures r.Ok? ==> r.value.indexReads == b.indexReads || r.value.indexReads == b.indexReads + [keys]
    ensures Get(b.tree, StrKeys(keys), VBool(false)).Err? ==> r.Err?
    // a node already there is kept and nothing is read
    ensures var g := Get(b.tree, StrKeys(keys), VBool(false));
      g.Ok? && Truthy(g.value) ==> r == Ok(b)
    // a falsy node: the `_index.md` is read (or missing), recorded, and its
    // node is what `get` reaches afterwards
    ensures var g := Get(b.tree, StrKeys(keys), VBool(false));
      g.Ok? && !Truthy(g.value) && IndexPath(cwd, keys) !in docs ==> r == Err(NotFound(IndexPath(cwd, keys)))
    ensures var g := Get(b.tree, StrKeys(keys), VBool(false));
      g.Ok? && !Truthy(g.value) && r.Ok? ==>
        IndexPath(cwd, keys) in docs && r.value.indexReads == b.indexReads + [keys]
        && Set(b.tree, StrKeys(keys), DirNode(docs[IndexPath(cwd, keys)])) == Ok(r.value.tree)
        && (|keys| >= 1 ==> Walk(r.value.tree, StrKeys(keys)) == Ok(Some(DirNode(docs[IndexPath(cwd, keys)]))))
  {
    var found :- Get(b.tree, StrKeys(keys), VBool(false));
    if Truthy(found) then Ok(b)
    else if IndexPath(cwd, keys) !in docs then Err(NotFound(IndexPath(cwd, keys)))
    else
      var node := DirNode(docs[IndexPath(cwd, keys)]);
      var t :- Set(b.tree, StrKeys(keys), node);
      if |keys| >= 1 then
        SetThenGet(b.tree, StrKeys(keys), node, VBool(false));
        Ok(Build(t, b.indexReads + [keys]))
      else Ok(Build(t, b.indexReads + [keys]))
  }

  /** The second half: `get(fileTree, keys, false).pages.push(item)`, which
      throws when the node found has no `pages` array. */
  function PushPage(b: Build, keys: seq<string>, item: Value): (r: Result<Build>)
    ensures r.Ok? && b.tree.VObj? ==> r.value.tree.VObj?
    ensures r.Ok? ==> r.value.indexReads == b.indexReads
    // a node whose `pages` is not an array throws
    ensures var g := Get(b.tree, StrKeys(keys), VBool(false));
      g.Ok? && ReadProp(g.value, KStr("pages")).Ok? && !ReadProp(g.value, KStr("pages")).value.VArr? ==> r == Err(TypeError)
    // otherwise the item is appended to the pages found
    ensures r.Ok? ==> Get(b.tree, StrKeys(keys), VBool(false)).Ok?
    ensures r.Ok? ==> exists a: seq<Value> ::
      ReadProp(Get(b.tree, StrKeys(keys), VBool(false)).value, KStr("pages")) == Ok(VArr(a))
      && Walk(r.value.tree, StrKeys(keys + ["pages"])) == Ok(Some(VArr(a + [item])))
  {
    var node :- Get(b.tree, StrKeys(keys), VBool(false));
    var pages :- ReadProp(node, KStr("pages"));
    if !pages.VArr? then Err(TypeError)
    else
      var t :- Set(b.tree, StrKeys(keys) + [KStr("pages")], VArr(pages.a + [item]));
      SetThenGet(b.tree, StrKeys(keys) + [KStr("pages")], VArr(pages.a + [item]), VBool(false));
      assert StrKeys(keys + ["pages"]) == StrKeys(keys) + [KStr("pages")];
      Ok(Build(t, b.indexReads))
  }

  /** One round of `allFiles.forEach`: the node, then the file's own
      contents, then the push. */
  function AddFile(cwd: string, docs: map<string, Doc>, b: Build, f: Located): (r: Result<Build>)
    ensures r.Ok? ==> f.path in docs
    ensures r.Ok? && b.tree.VObj? ==> r.value.tree.VObj?
    ensures r.Ok? ==> r.value.indexReads == b.indexReads || r.value.indexReads == b.indexReads + [f.keys]
  {
    var b1 :- EnsureNode(cwd, docs, b, f.keys);
    if f.path !in docs then Err(NotFound(f.path))
    else PushPage(b1, f.keys, PageItem(docs[f.path].data, f.parsed))
  }

  /** The `forEach` over the files, in order, from an empty tree; the first
      file that throws ends it. */
  function Scan(cwd: string, docs: map<string, Doc>, fs: seq<Located>): (r: Result<Build>)
    ensures fs == [] ==> r == Ok(Build(VObj(map[]), []))
    ensures r.Ok? ==> r.value.tree.VObj?
  {
    if |fs| == 0 then Ok(Build(VObj(map[]), []))
    else
      var init := fs[..|fs| - 1];
      var b :- Scan(cwd, docs, init);
      AddFile(cwd, docs, b, fs[|fs| - 1])
  }

  function LocateAll(files: seq<string>): (r: seq<Located>)
    ensures |r| == |files|
    ensures forall i :: 0 <= i < |files| ==> r[i] == Locate(files[i])
  {
    seq(|files|, i requires 0 <= i < |files| => Locate(files[i]))
  }

  /** `getLinksinSubdirs(path)`, the directory `path` holding `entries`. */
  function LinksInSubdirs(cwd: string, docs: map<string, Doc>, path: string, entries: seq<Entry>): (r: Result<Value>)
    ensures r.Ok? ==> r.value.VObj?
    ensures r.Ok? <==> Scan(cwd, docs, LocateAll(ListAll(path, entries))).Ok?
  {
    var b :- Scan(cwd, docs, LocateAll(ListAll(path, entries)));
    Ok(b.tree)
  }

  /** The path after the first "content/" of a file whose root holds no
      'c'. */
  lemma RelPathBehind(root: string, rest: string)
    requires 'c' !in root
    ensures RelPath(root + "content/" + rest) == "/" + rest
  {
    var e := root + "content/" + rest;
    var n := |root|;
    assert e[n..n + 8] == "content/";
    assert OccursAt(e, "content/", n);
    forall j | 0 <= j < n
      ensures !OccursAt(e, "content/", j)
    {
      assert e[j..j + 8][0] == e[j] == root[j];
    }
    var i := IndexFrom(e, "content/", 0);
    assert i == n;
    assert e[n..] == "content" + ("/" + rest);
  }

  lemma RelPathExample()
    ensures RelPath("/site/content/docs/a/x.md") == "/docs/a/x.md"
  {
    assert "/site/content/docs/a/x.md" == "/site/" + "content/" + "docs/a/x.md";
    RelPathBehind("/site/", "docs/a/x.md");
  }

  /** A path with a non-empty directory part parses back into it. */
  lemma ParseJoined(dir: string, base: string)
    requires dir != "" && '/' !in base
    ensures ParsePath(dir + "/" + base) == Parsed(dir, base, StripExt(base))
  {
    var p := dir + "/" + base;
    assert p == dir + ['/'] + base;
    LastIndexBefore(dir, '/', base);
    assert p[..|dir|] == dir && p[|dir| + 1..] == base;
  }

  /** A name with one extension loses exactly that extension. */
  lemma StripOneExt(name: string, ext: string)
    requires name != "" && '.' !in ext
    ensures StripExt(name + "." + ext) == name
  {
    var base := name + "." + ext;
    assert base == name + ['.'] + ext;
    LastIndexBefore(name, '.', ext);
    assert base[..|name|] == name;
  }

  lemma ParseExample()
    ensures ParsePath("/docs/a/x.md") == Parsed("/docs/a", "x.md", "x")
  {
    assert "/docs/a/x.md" == "/docs/a" + "/" + "x.md";
    ParseJoined("/docs/a", "x.md");
    assert "x.md" == "x" + "." + "md";
    StripOneExt("x", "md");
  }

  lemma SegmentsExample()
    ensures Segments("/docs/a") == ["docs", "a"]
  {
    assert Join(["docs", "a"]) == "/docs/a";
    SegmentsOfJoin(["docs", "a"]);
  }

  /** The text after "content" of a path, seen from "content/". */
  lemma ShiftSlash(root: string, dir: string, base: string)
    requires |dir| >= 1 && dir[0] == '/'
    ensures root + "content" + dir + "/" + base == root + "content/" + (dir[1..] + "/" + base)
  {
    assert dir == "/" + dir[1..];
    assert "content" + "/" == "content/";
  }

  /** A joined list of directory names starts with a slash. */
  lemma JoinLeadingSlash(keys: seq<string>)
    requires |keys| >= 1
    ensures |Join(keys)| >= 1 && Join(keys)[0] == '/'
  {
  }

  /** Moving the leading slash of `dir` out in front of the rest of the
      path leaves the text unchanged. */
  lemma SlashFront(dir: string, base: string)
    requires |dir| >= 1 && dir[0] == '/'
    ensures "/" + (dir[1..] + "/" + base) == dir + "/" + base
  {
    assert dir == "/" + dir[1..];
  }

  /** `relPath` of a file under the first `content` directory is what
      follows that word, starting with its slash. */
  lemma RelPathJoined(root: string, dir: string, base: string)
    requires 'c' !in root
    requires |dir| >= 1 && dir[0] == '/'
    ensures RelPath(root + "content" + dir + "/" + base) == dir + "/" + base
  {
    ShiftSlash(root, dir, base);
    RelPathBehind(root, dir[1..] + "/" + base);
    SlashFront(dir, base);
  }

  /** Any file under `content`, below one or more directories with plain
      names, is located at those names, in order. */
  lemma LocateJoined(root: string, keys: seq<string>, base: string)
    requires 'c' !in root && '/' !in base
    requires |keys| >= 1 && forall i :: 0 <= i < |keys| ==> DirName(keys[i])
    ensures var e := root + "content" + Join(keys) + "/" + base;
      Locate(e) == Located(e, keys, Parsed(Join(keys), base, StripExt(base)))
  {
    JoinLeadingSlash(keys);
    RelPathJoined(root, Join(keys), base);
    ParseJoined(Join(keys), base);
    SegmentsOfJoin(keys);
  }

  /** A documentation page two directories down. */
  lemma LocateExample()
    ensures Locate("/site/content/docs/a/x.md") == Located("/site/content/docs/a/x.md", ["docs", "a"], Parsed("/docs/a", "x.md", "x"))
  {
    RelPathExample();
    ParseExample();
    SegmentsExample();
  }
}

=== FILE: linktree.dfy ===
/** What the tree of `getLinksinSubdirs` holds, when it is built.

    When every file lies in a directory (not directly under "content/"), no
    directory is named "title" or "pages", every directory has its
    `_index.md`, and a directory's own files come before the files of its
    subdirectories, the scan succeeds; each directory's `pages` lists its
    files in scan order (not sorted by weight); its `title` is the one in its
    `_index.md`; and each `_index.md` is read once, in order of first use.
    When a subdirectory's file comes first, the scan throws. */
module LinkTree {
  import opened Results
  import opened Json
  import opened PathTree
  import opened Posts
  import opened Links

  /** The two names a directory node uses for itself. */
  predicate Reserved(x: string) {
    x == "title" || x == "pages"
  }

  predicate NoReserved(p: seq<string>) {
    forall i :: 0 <= i < |p| ==> !Reserved(p[i])
  }

  predicate IsPrefix(p: seq<string>, q: seq<string>) {
    |p| <= |q| && q[..|p|] == p
  }

  /** `p` is a directory strictly above `q`. */
  predicate Above(p: seq<string>, q: seq<string>) {
    |p| < |q| && IsPrefix(p, q)
  }

  /** An object whose members, apart from "title" and "pages", are again
      such objects. */
  predicate Shape(t: Value) {
    t.VObj? && forall x :: x in t.m && !Reserved(x) ==> Shape(t.m[x])
  }

  /** The keys of every file, in order. */
  function FilesKeys(fs: seq<Located>): (r: seq<seq<string>>)
    ensures |r| == |fs|
    ensures forall i :: 0 <= i < |fs| ==> r[i] == fs[i].keys
  {
    seq(|fs|, i requires 0 <= i < |fs| => fs[i].keys)
  }

  /** Where each file's entry goes: its page item, from its parse. */
  function EntryOf(docs: map<string, Doc>, f: Located): Value {
    if f.path in docs then PageItem(docs[f.path].data, f.parsed) else VUndef
  }

  /** Reference: the entries of the files whose keys are `k`, in order. */
  function PagesFor(docs: map<string, Doc>, fs: seq<Located>, k: seq<string>): seq<Value> {
    if |fs| == 0 then []
    else
      var last := fs[|fs| - 1];
      PagesFor(docs, fs[..|fs| - 1], k) + (if last.keys == k then [EntryOf(docs, last)] else [])
  }

  /** The title a directory's `_index.md` gives it. */
  function IndexTitle(cwd: string, docs: map<string, Doc>, k: seq<string>): Value {
    if IndexPath(cwd, k) in docs then Member(docs[IndexPath(cwd, k)].data, "title") else VUndef
  }

  /** What `get` of a property holding `v` walks to. */
  function Reached(v: Value): Result<Option<Value>> {
    if v == VUndef then Ok(None) else Ok(Some(v))
  }

  /** Reference: the distinct elements of `ks` in order of first
      occurrence. */
  function FirstOccurrences<T(==)>(ks: seq<T>): seq<T> {
    if |ks| == 0 then []
    else
      var init := ks[..|ks| - 1];
      FirstOccurrences(init) + (if ks[|ks| - 1] in init then [] else [ks[|ks| - 1]])
  }

  /** A directory's own files come before those of its subdirectories: a
      directory that is a proper prefix of an earlier file's directory was
      already seen before that file. */
  ghost predicate ParentsFirst(ks: seq<seq<string>>) {
    forall j, i :: 0 <= j < i < |ks| && Above(ks[i], ks[j]) ==> ks[i] in ks[..j]
  }

  /** The conditions under which the scan builds the intended tree. */
  ghost predicate Good(cwd: string, docs: map<string, Doc>, fs: seq<Located>) {
    var ks := FilesKeys(fs);
    (forall i :: 0 <= i < |fs| ==> fs[i].path in docs)
    && (forall i :: 0 <= i < |ks| ==> |ks[i]| >= 1 && NoReserved(ks[i]) && IndexPath(cwd, ks[i]) in docs)
    && ParentsFirst(ks)
  }

  /** `p` is a directory path below no file seen so far. */
  predicate Unseen(p: seq<string>, ks: seq<seq<string>>) {
    |p| > 0 && NoReserved(p) && forall i :: 0 <= i < |ks| ==> !IsPrefix(p, ks[i])
  }

  /** The node of directory `k` holds its pages and its title. */
  predicate NodeHolds(cwd: string, docs: map<string, Doc>, fs: seq<Located>, k: seq<string>, t: Value) {
    Walk(t, StrKeys(k + ["pages"])) == Ok(Some(VArr(PagesFor(docs, fs, k))))
    && Walk(t, StrKeys(k + ["title"])) == Reached(IndexTitle(cwd, docs, k))
  }

  /** The state after scanning `files`. */
  ghost predicate Inv(cwd: string, docs: map<string, Doc>, fs: seq<Located>, b: Build) {
    var ks := FilesKeys(fs);
    Shape(b.tree)
    && (forall p :: Unseen(p, ks) ==> Walk(b.tree, StrKeys(p)) == Ok(None))
    && (forall i :: 0 <= i < |ks| ==> NodeHolds(cwd, docs, fs, ks[i], b.tree))
    && b.indexReads == FirstOccurrences(ks)
  }

  // Paths

  lemma StrKeysAppend(p: seq<string>, q: seq<string>)
    ensures StrKeys(p + q) == StrKeys(p) + StrKeys(q)
  {
  }

  /** Two paths neither of which is a prefix of the other part somewhere. */
  lemma Parting(p: seq<string>, q: seq<string>) returns (i: nat)
    requires !IsPrefix(p, q) && !IsPrefix(q, p)
    ensures i < |p| && i < |q| && p[i] != q[i]
  {
    var n := if |p| < |q| then |p| else |q|;
    assert p[..n] != q[..n];
    i :| 0 <= i < n && p[..n][i] != q[..n][i];
  }

  /** Two different directories, each with a reserved name appended, part
      somewhere. */
  lemma SuffixParting(p: seq<string>, x: string, q: seq<string>, y: string) returns (i: nat)
    requires p != q && NoReserved(p) && NoReserved(q) && Reserved(x) && Reserved(y)
    ensures i < |p| + 1 && i < |q| + 1 && (p + [x])[i] != (q + [y])[i]
  {
    if IsPrefix(p, q) {
      i := |p|;
    } else if IsPrefix(q, p) {
      i := |q|;
    } else {
      i := Parting(p, q);
    }
  }

  /** `set` at a path leaves alone a path that parts from it. */
  lemma FrameAt(t: Value, path: seq<string>, v: Value, p: seq<string>, i: nat)
    requires |path| >= 1 && Set(t, StrKeys(path), v).Ok?
    requires i < |p| && i < |path| && p[i] != path[i]
    ensures Walk(Set(t, StrKeys(path), v).value, StrKeys(p)) == Walk(t, StrKeys(p))
  {
    SetFrame(t, StrKeys(path), v, StrKeys(p), i);
  }

  // Shape

  /** A walk along directory names in a shaped tree ends at nothing or at a
      shaped node. */
  lemma {:induction false} ShapeWalk(t: Value, p: seq<string>)
    requires Shape(t) && NoReserved(p)
    ensures Walk(t, StrKeys(p)).Ok?
    ensures Walk(t, StrKeys(p)).value.Some? ==> Shape(Walk(t, StrKeys(p)).value.value)
    decreases |p|
  {
    if |p| > 0 {
      assert StrKeys(p)[1..] == StrKeys(p[1..]);
      var v := Member(t.m, p[0]);
      if v != VUndef {
        ShapeWalk(v, p[1..]);
      }
    }
  }

  /** `set` along directory names succeeds in a shaped tree and keeps it
      shaped, when what it stores under a directory name is shaped. */
  lemma {:induction false} ShapeSet(t: Value, p: seq<string>, v: Value)
    requires Shape(t) && |p| >= 1
    requires NoReserved(p[..|p| - 1])
    requires Reserved(p[|p| - 1]) || Shape(v)
    ensures Set(t, StrKeys(p), v).Ok?
    ensures Shape(Set(t, StrKeys(p), v).value)
    decreases |p|
  {
    var path := StrKeys(p);
    if |p| == 1 {
      var r := VObj(t.m[p[0] := v]);
      assert Set(t, path, v) == Ok(r);
      assert forall x :: x in r.m && !Reserved(x) ==> Shape(r.m[x]);
    } else {
      assert path[1..] == StrKeys(p[1..]);
      assert p[1..][..|p| - 2] == p[1..|p| - 1];
      assert !Reserved(p[..|p| - 1][0]);
      var cur := Member(t.m, p[0]);
      var child := if cur != VUndef then cur else VObj(map[]);
      ShapeSet(child, p[1..], v);
      var child' := Set(child, StrKeys(p[1..]), v).value;
      var r := VObj(t.m[p[0] := child']);
      assert Set(t, path, v) == Ok(r);
      assert forall x :: x in r.m && !Reserved(x) ==> Shape(r.m[x]);
    }
  }

  lemma DirNodeShape(index: Doc)
    ensures Shape(DirNode(index))
  {
    var m := DirNode(index).m;
    assert forall x :: x in m ==> Reserved(x);
  }

  // One step

  lemma FilesKeysAppend(fs: seq<Located>, f: Located)
    ensures FilesKeys(fs + [f]) == FilesKeys(fs) + [f.keys]
  {
  }

  lemma PagesForAppend(docs: map<string, Doc>, fs: seq<Located>, f: Located, k: seq<string>)
    ensures PagesFor(docs, fs + [f], k) == PagesFor(docs, fs, k) + (if f.keys == k then [EntryOf(docs, f)] else [])
  {
    assert (fs + [f])[..|fs|] == fs;
  }

  /** A directory no file has had yet holds no pages. */
  lemma {:induction false} PagesForUnseen(docs: map<string, Doc>, fs: seq<Located>, k: seq<string>)
    requires k !in FilesKeys(fs)
    ensures PagesFor(docs, fs, k) == []
  {
    if |fs| > 0 {
      var init := fs[..|fs| - 1];
      assert FilesKeys(init) == FilesKeys(fs)[..|init|];
      assert FilesKeys(fs)[|init|] == fs[|init|].keys;
      PagesForUnseen(docs, init, k);
    }
  }

  lemma ParentsFirstInit(ks: seq<seq<string>>, k: seq<string>)
    requires ParentsFirst(ks + [k])
    ensures ParentsFirst(ks)
    ensures k !in ks ==> forall j :: 0 <= j < |ks| ==> !Above(k, ks[j])
  {
    var ks' := ks + [k];
    assert forall i :: 0 <= i < |ks| ==> ks'[i] == ks[i];
    assert ks'[|ks|] == k;
    forall j | 0 <= j < |ks| && Above(k, ks[j])
      ensures k in ks
    {
      assert ks'[..j] == ks[..j];
    }
    forall j, i | 0 <= j < i < |ks| && Above(ks[i], ks[j])
      ensures ks[i] in ks[..j]
    {
      assert ks'[..j] == ks[..j];
    }
  }

  lemma GoodInit(cwd: string, docs: map<string, Doc>, fs: seq<Located>, f: Located)
    requires Good(cwd, docs, fs + [f])
    ensures Good(cwd, docs, fs)
    ensures f.path in docs
    ensures var k := f.keys; |k| >= 1 && NoReserved(k) && IndexPath(cwd, k) in docs
    ensures f.keys !in FilesKeys(fs) ==> forall j :: 0 <= j < |fs| ==> !Above(f.keys, FilesKeys(fs)[j])
  {
    var ks := FilesKeys(fs);
    FilesKeysAppend(fs, f);
    assert (fs + [f])[|fs|] == f;
    assert forall i :: 0 <= i < |fs| ==> (fs + [f])[i] == fs[i];
    assert FilesKeys(fs + [f])[|fs|] == f.keys;
    assert forall i :: 0 <= i < |ks| ==> FilesKeys(fs + [f])[i] == ks[i];
    ParentsFirstInit(ks, f.keys);
  }

  /** Where a walk along directory names in a shaped tree reaches
      `pages` below `k`, the node at `k` exists, holds those pages, and is
      what `get` returns. */
  lemma NodeAt(t: Value, k: seq<string>, pages: Value) returns (u: Value)
    requires Shape(t) && NoReserved(k)
    requires Walk(t, StrKeys(k + ["pages"])) == Ok(Some(pages))
    ensures Walk(t, StrKeys(k)) == Ok(Some(u))
    ensures Get(t, StrKeys(k), VBool(false)) == Ok(u) && Truthy(u)
    ensures ReadProp(u, KStr("pages")) == Ok(pages)
  {
    var pk := StrKeys(k);
    StrKeysAppend(k, ["pages"]);
    assert StrKeys(["pages"]) == [KStr("pages")];
    WalkAppend(t, pk, [KStr("pages")]);
    ShapeWalk(t, k);
    assert Walk(t, pk).value.Some?;
    u := Walk(t, pk).value.value;
    assert [KStr("pages")][1..] == [];
  }

  /** Pushing onto the pages of an existing node. */
  lemma PushExisting(b: Build, k: seq<string>, item: Value, pages: seq<Value>)
    requires Shape(b.tree) && NoReserved(k)
    requires Walk(b.tree, StrKeys(k + ["pages"])) == Ok(Some(VArr(pages)))
    ensures var t := Set(b.tree, StrKeys(k + ["pages"]), VArr(pages + [item]));
      t.Ok? && Shape(t.value) && PushPage(b, k, item) == Ok(Build(t.value, b.indexReads))
  {
    var u := NodeAt(b.tree, k, VArr(pages));
    StrKeysAppend(k, ["pages"]);
    assert StrKeys(["pages"]) == [KStr("pages")];
    assert (k + ["pages"])[..|k|] == k;
    ShapeSet(b.tree, k + ["pages"], VArr(pages + [item]));
  }

  /** The file of a directory seen before: no `_index.md` is read, and its
      entry is pushed onto the pages already there. */
  lemma AddSeen(cwd: string, docs: map<string, Doc>, fs: seq<Located>, f: Located, b: Build)
    requires Inv(cwd, docs, fs, b)
    requires f.path in docs && NoReserved(f.keys)
    requires f.keys in FilesKeys(fs)
    ensures var k := f.keys;
      var t := Set(b.tree, StrKeys(k + ["pages"]), VArr(PagesFor(docs, fs, k) + [EntryOf(docs, f)]));
      t.Ok? && AddFile(cwd, docs, b, f) == Ok(Build(t.value, b.indexReads))
  {
    var k := f.keys;
    var ks := FilesKeys(fs);
    var i :| 0 <= i < |ks| && ks[i] == k;
    assert NodeHolds(cwd, docs, fs, k, b.tree);
    var u := NodeAt(b.tree, k, VArr(PagesFor(docs, fs, k)));
    assert EnsureNode(cwd, docs, b, k) == Ok(b);
    PushExisting(b, k, EntryOf(docs, f), PagesFor(docs, fs, k));
  }

  /** A directory with no node gets a fresh one from its `_index.md`, with
      no pages yet. */
  lemma CreateNode(cwd: string, docs: map<string, Doc>, b: Build, k: seq<string>)
    requires Shape(b.tree) && |k| >= 1 && NoReserved(k)
    requires IndexPath(cwd, k) in docs
    requires Walk(b.tree, StrKeys(k)) == Ok(None)
    ensures var node := DirNode(docs[IndexPath(cwd, k)]);
      var t1 := Set(b.tree, StrKeys(k), node);
      t1.Ok? && Shape(t1.value)
      && EnsureNode(cwd, docs, b, k) == Ok(Build(t1.value, b.indexReads + [k]))
      && Walk(t1.value, StrKeys(k)) == Ok(Some(node))
  {
    var pk := StrKeys(k);
    var node := DirNode(docs[IndexPath(cwd, k)]);
    DirNodeShape(docs[IndexPath(cwd, k)]);
    assert k[..|k| - 1] + [k[|k| - 1]] == k;
    assert !Reserved(k[|k| - 1]);
    ShapeSet(b.tree, k, node);
    assert Get(b.tree, pk, VBool(false)) == Ok(VBool(false));
    SetThenGet(b.tree, pk, node, VBool(false));
  }

  /** Below a new node, a reserved name walks to what the node holds there
      and any other name to nothing. */
  lemma BelowNewNode(t: Value, k: seq<string>, index: Doc, r: seq<string>)
    requires Walk(t, StrKeys(k)) == Ok(Some(DirNode(index)))
    requires |r| >= 1
    ensures Reserved(r[0]) && |r| == 1 ==> Walk(t, StrKeys(k + r)) == Reached(DirNode(index).m[r[0]])
    ensures !Reserved(r[0]) ==> Walk(t, StrKeys(k + r)) == Ok(None)
  {
    StrKeysAppend(k, r);
    WalkAppend(t, StrKeys(k), StrKeys(r));
    if |r| == 1 {
      assert StrKeys(r)[1..] == [];
    }
  }

  /** The first file of a directory: its node is made from its `_index.md`,
      then its entry becomes the only page. */
  lemma AddNew(cwd: string, docs: map<string, Doc>, f: Located, b: Build)
    requires Shape(b.tree) && Walk(b.tree, StrKeys(f.keys)) == Ok(None)
    requires f.path in docs && |f.keys| >= 1 && NoReserved(f.keys) && IndexPath(cwd, f.keys) in docs
    ensures var k := f.keys;
      var t1 := Set(b.tree, StrKeys(k), DirNode(docs[IndexPath(cwd, k)]));
      t1.Ok? && Shape(t1.value) && Walk(t1.value, StrKeys(k)) == Ok(Some(DirNode(docs[IndexPath(cwd, k)]))) &&
      var t2 := Set(t1.value, StrKeys(k + ["pages"]), VArr([EntryOf(docs, f)]));
      t2.Ok? && Shape(t2.value) && AddFile(cwd, docs, b, f) == Ok(Build(t2.value, b.indexReads + [k]))
  {
    var k := f.keys;
    var index := docs[IndexPath(cwd, k)];
    CreateNode(cwd, docs, b, k);
    var t1 := Set(b.tree, StrKeys(k), DirNode(index)).value;
    var b1 := Build(t1, b.indexReads + [k]);
    BelowNewNode(t1, k, index, ["pages"]);
    assert ["pages"][0] == "pages";
    PushExisting(b1, k, EntryOf(docs, f), []);
    assert [] + [EntryOf(docs, f)] == [EntryOf(docs, f)];
  }

  /** The node of another directory is untouched by a push onto `k`'s
      pages. */
  lemma OtherNodeKept(cwd: string, docs: map<string, Doc>, fs: seq<Located>, f: Located, q: seq<string>, t: Value, arr: Value)
    requires NodeHolds(cwd, docs, fs, q, t)
    requires q != f.keys && NoReserved(q) && NoReserved(f.keys)
    requires Set(t, StrKeys(f.keys + ["pages"]), arr).Ok?
    ensures NodeHolds(cwd, docs, fs + [f], q, Set(t, StrKeys(f.keys + ["pages"]), arr).value)
  {
    var k := f.keys;
    var t' := Set(t, StrKeys(k + ["pages"]), arr).value;
    var i := SuffixParting(q, "pages", k, "pages");
    FrameAt(t, k + ["pages"], arr, q + ["pages"], i);
    assert Walk(t', StrKeys(q + ["pages"])) == Walk(t, StrKeys(q + ["pages"]));
    var j := SuffixParting(q, "title", k, "pages");
    FrameAt(t, k + ["pages"], arr, q + ["title"], j);
    assert Walk(t', StrKeys(q + ["title"])) == Walk(t, StrKeys(q + ["title"]));
    PagesForAppend(docs, fs, f, q);
    assert PagesFor(docs, fs + [f], q) == PagesFor(docs, fs, q);
  }

  /** A new node for `k` leaves alone every path that does not go through
      `k`. */
  lemma NewNodeFrame(t: Value, k: seq<string>, node: Value, p: seq<string>)
    requires |k| >= 1 && Set(t, StrKeys(k), node).Ok?
    requires !IsPrefix(k, p) && !IsPrefix(p, k)
    ensures Walk(Set(t, StrKeys(k), node).value, StrKeys(p)) == Walk(t, StrKeys(p))
  {
    var i := Parting(p, k);
    FrameAt(t, k, node, p, i);
  }

  /** Every directory path below no file seen so far walks to nothing. */
  ghost predicate Reach(t: Value, ks: seq<seq<string>>) {
    forall p :: Unseen(p, ks) ==> Walk(t, StrKeys(p)) == Ok(None)
  }

  lemma ReachMore(t: Value, ks: seq<seq<string>>, k: seq<string>)
    requires Reach(t, ks)
    ensures Reach(t, ks + [k])
  {
    forall p | Unseen(p, ks + [k])
      ensures Walk(t, StrKeys(p)) == Ok(None)
    {
      assert forall i :: 0 <= i < |ks| ==> (ks + [k])[i] == ks[i];
      assert Unseen(p, ks);
    }
  }

  /** A push onto the pages of a seen directory keeps unseen paths empty. */
  lemma ReachAfterPush(t: Value, t': Value, k: seq<string>, arr: Value, ks: seq<seq<string>>)
    requires Reach(t, ks) && k in ks && NoReserved(k)
    requires Set(t, StrKeys(k + ["pages"]), arr) == Ok(t')
    ensures Reach(t', ks)
  {
    forall p | Unseen(p, ks)
      ensures Walk(t', StrKeys(p)) == Ok(None)
    {
      var j :| 0 <= j < |ks| && ks[j] == k;
      assert !IsPrefix(p, ks[j]);
      var i: nat;
      if IsPrefix(k, p) {
        i := |k|;
        assert !Reserved(p[i]);
      } else {
        i := Parting(p, k);
      }
      FrameAt(t, k + ["pages"], arr, p, i);
    }
  }

  /** A new node for an unseen directory keeps every other unseen path
      empty, and has nothing below it but its title and pages. */
  lemma ReachAfterCreate(t: Value, t1: Value, k: seq<string>, index: Doc, ks: seq<seq<string>>)
    requires Reach(t, ks) && |k| >= 1
    requires Set(t, StrKeys(k), DirNode(index)) == Ok(t1)
    requires Walk(t1, StrKeys(k)) == Ok(Some(DirNode(index)))
    ensures Reach(t1, ks + [k])
  {
    forall p | Unseen(p, ks + [k])
      ensures Walk(t1, StrKeys(p)) == Ok(None)
    {
      assert forall i :: 0 <= i < |ks| ==> (ks + [k])[i] == ks[i];
      assert Unseen(p, ks);
      assert !IsPrefix(p, (ks + [k])[|ks|]);
      if IsPrefix(k, p) {
        var r := p[|k|..];
        assert p == k + r;
        assert r[0] == p[|k|];
        BelowNewNode(t1, k, index, r);
      } else {
        NewNodeFrame(t, k, DirNode(index), p);
      }
    }
  }

  /** After the push, directory `k` holds its pages with the new entry last,
      and its title as before. */
  lemma OwnNodeAfterPush(cwd: string, docs: map<string, Doc>, fs: seq<Located>, f: Located, t: Value, t': Value)
    requires Walk(t, StrKeys(f.keys + ["title"])) == Reached(IndexTitle(cwd, docs, f.keys))
    requires Set(t, StrKeys(f.keys + ["pages"]), VArr(PagesFor(docs, fs, f.keys) + [EntryOf(docs, f)])) == Ok(t')
    ensures NodeHolds(cwd, docs, fs + [f], f.keys, t')
  {
    var k := f.keys;
    var arr := VArr(PagesFor(docs, fs, k) + [EntryOf(docs, f)]);
    SetThenGet(t, StrKeys(k + ["pages"]), arr, VBool(false));
    FrameAt(t, k + ["pages"], arr, k + ["title"], |k|);
    PagesForAppend(docs, fs, f, k);
  }

  /** The nodes of all directories seen, after a file of a seen directory. */
  lemma NodesSeen(cwd: string, docs: map<string, Doc>, fs: seq<Located>, f: Located, t: Value, t': Value)
    requires var ks := FilesKeys(fs);
      (forall i :: 0 <= i < |ks| ==> NodeHolds(cwd, docs, fs, ks[i], t) && NoReserved(ks[i]))
    requires f.keys in FilesKeys(fs) && NoReserved(f.keys)
    requires Set(t, StrKeys(f.keys + ["pages"]), VArr(PagesFor(docs, fs, f.keys) + [EntryOf(docs, f)])) == Ok(t')
    ensures var ks' := FilesKeys(fs + [f]);
      forall i :: 0 <= i < |ks'| ==> NodeHolds(cwd, docs, fs + [f], ks'[i], t')
  {
    var k := f.keys;
    var ks := FilesKeys(fs);
    var ks' := FilesKeys(fs + [f]);
    FilesKeysAppend(fs, f);
    var arr := VArr(PagesFor(docs, fs, k) + [EntryOf(docs, f)]);
    forall j | 0 <= j < |ks'|
      ensures NodeHolds(cwd, docs, fs + [f], ks'[j], t')
    {
      if ks'[j] == k {
        var i :| 0 <= i < |ks| && ks[i] == k;
        assert NodeHolds(cwd, docs, fs, k, t);
        OwnNodeAfterPush(cwd, docs, fs, f, t, t');
      } else {
        assert ks'[j] == ks[j];
        OtherNodeKept(cwd, docs, fs, f, ks[j], t, arr);
      }
    }
  }

  lemma ReservedNotInside(q: seq<string>, x: string, k: seq<string>)
    requires NoReserved(k) && Reserved(x)
    ensures !IsPrefix(q + [x], k)
  {
    if |q| + 1 <= |k| {
      assert (q + [x])[|q|] == x;
      assert !Reserved(k[|q|]);
    }
  }

  lemma NotAboveSuffixed(k: seq<string>, q: seq<string>, x: string)
    requires NoReserved(k) && Reserved(x) && k != q && !Above(k, q)
    ensures !IsPrefix(k, q + [x])
  {
    if |k| <= |q| {
      assert (q + [x])[..|k|] == q[..|k|];
      if |k| == |q| {
        assert q[..|k|] == q;
      }
    } else if |k| == |q| + 1 {
      assert (q + [x])[|q|] == x;
      assert !Reserved(k[|q|]);
    }
  }

  /** A new node for `k` leaves the node of every seen directory alone, as
      long as `k` is not above it. */
  lemma NodeKeptByCreate(cwd: string, docs: map<string, Doc>, fs: seq<Located>, q: seq<string>, t: Value, t1: Value, k: seq<string>, index: Doc)
    requires NodeHolds(cwd, docs, fs, q, t)
    requires NoReserved(q) && NoReserved(k) && |k| >= 1 && q != k && !Above(k, q)
    requires Set(t, StrKeys(k), DirNode(index)) == Ok(t1)
    ensures NodeHolds(cwd, docs, fs, q, t1)
  {
    ReservedNotInside(q, "pages", k);
    NotAboveSuffixed(k, q, "pages");
    NewNodeFrame(t, k, DirNode(index), q + ["pages"]);
    ReservedNotInside(q, "title", k);
    NotAboveSuffixed(k, q, "title");
    NewNodeFrame(t, k, DirNode(index), q + ["title"]);
  }

  /** The nodes of all directories seen, after the first file of a new
      directory. */
  lemma NodesNew(cwd: string, docs: map<string, Doc>, fs: seq<Located>, f: Located, t: Value, t1: Value, t2: Value)
    requires var ks := FilesKeys(fs);
      (forall i :: 0 <= i < |ks| ==> NodeHolds(cwd, docs, fs, ks[i], t) && NoReserved(ks[i]) && !Above(f.keys, ks[i]))
    requires f.keys !in FilesKeys(fs) && NoReserved(f.keys) && |f.keys| >= 1
    requires IndexPath(cwd, f.keys) in docs
    requires Set(t, StrKeys(f.keys), DirNode(docs[IndexPath(cwd, f.keys)])) == Ok(t1)
    requires Walk(t1, StrKeys(f.keys)) == Ok(Some(DirNode(docs[IndexPath(cwd, f.keys)])))
    requires Set(t1, StrKeys(f.keys + ["pages"]), VArr([EntryOf(docs, f)])) == Ok(t2)
    ensures var ks' := FilesKeys(fs + [f]);
      forall i :: 0 <= i < |ks'| ==> NodeHolds(cwd, docs, fs + [f], ks'[i], t2)
  {
    var k := f.keys;
    var index := docs[IndexPath(cwd, k)];
    var ks := FilesKeys(fs);
    var ks' := FilesKeys(fs + [f]);
    FilesKeysAppend(fs, f);
    var arr := VArr([EntryOf(docs, f)]);
    PagesForUnseen(docs, fs, k);
    assert PagesFor(docs, fs, k) + [EntryOf(docs, f)] == [EntryOf(docs, f)];
    forall j | 0 <= j < |ks'|
      ensures NodeHolds(cwd, docs, fs + [f], ks'[j], t2)
    {
      if ks'[j] == k {
        BelowNewNode(t1, k, index, ["title"]);
        assert ["title"][0] == "title";
        OwnNodeAfterPush(cwd, docs, fs, f, t1, t2);
      } else {
        assert ks'[j] == ks[j];
        NodeKeptByCreate(cwd, docs, fs, ks[j], t, t1, k, index);
        OtherNodeKept(cwd, docs, fs, f, ks[j], t1, arr);
      }
    }
  }

  lemma FirstOccurrencesAppend<T>(ks: seq<T>, k: T)
    ensures FirstOccurrences(ks + [k]) == FirstOccurrences(ks) + (if k in ks then [] else [k])
  {
    assert (ks + [k])[..|ks|] == ks;
  }

  lemma StepSeen(cwd: string, docs: map<string, Doc>, fs: seq<Located>, f: Located, b: Build)
    requires Inv(cwd, docs, fs, b) && Good(cwd, docs, fs)
    requires f.path in docs && NoReserved(f.keys) && f.keys in FilesKeys(fs)
    ensures AddFile(cwd, docs, b, f).Ok?
    ensures Inv(cwd, docs, fs + [f], AddFile(cwd, docs, b, f).value)
  {
    var k := f.keys;
    var ks := FilesKeys(fs);
    var arr := VArr(PagesFor(docs, fs, k) + [EntryOf(docs, f)]);
    FilesKeysAppend(fs, f);
    FirstOccurrencesAppend(ks, k);
    assert Reach(b.tree, ks);
    AddSeen(cwd, docs, fs, f, b);
    var t' := Set(b.tree, StrKeys(k + ["pages"]), arr).value;
    assert (k + ["pages"])[..|k|] == k;
    ShapeSet(b.tree, k + ["pages"], arr);
    ReachAfterPush(b.tree, t', k, arr, ks);
    ReachMore(t', ks, k);
    NodesSeen(cwd, docs, fs, f, b.tree, t');
  }

  lemma StepNew(cwd: string, docs: map<string, Doc>, fs: seq<Located>, f: Located, b: Build)
    requires Inv(cwd, docs, fs, b) && Good(cwd, docs, fs)
    requires f.path in docs && NoReserved(f.keys) && |f.keys| >= 1 && IndexPath(cwd, f.keys) in docs
    requires f.keys !in FilesKeys(fs)
    requires forall j :: 0 <= j < |fs| ==> !Above(f.keys, FilesKeys(fs)[j])
    ensures AddFile(cwd, docs, b, f).Ok?
    ensures Inv(cwd, docs, fs + [f], AddFile(cwd, docs, b, f).value)
  {
    var k := f.keys;
    var ks := FilesKeys(fs);
    FilesKeysAppend(fs, f);
    FirstOccurrencesAppend(ks, k);
    assert Reach(b.tree, ks);
    forall j | 0 <= j < |ks|
      ensures !IsPrefix(k, ks[j])
    {
      assert k != ks[j];
    }
    assert Unseen(k, ks);
    var index := docs[IndexPath(cwd, k)];
    AddNew(cwd, docs, f, b);
    var t1 := Set(b.tree, StrKeys(k), DirNode(index)).value;
    var t2 := Set(t1, StrKeys(k + ["pages"]), VArr([EntryOf(docs, f)])).value;
    ReachAfterCreate(b.tree, t1, k, index, ks);
    ReachAfterPush(t1, t2, k, VArr([EntryOf(docs, f)]), ks + [k]);
    NodesNew(cwd, docs, fs, f, b.tree, t1, t2);
  }

  /** One round keeps the invariant. */
  lemma Step(cwd: string, docs: map<string, Doc>, fs: seq<Located>, f: Located, b: Build)
    requires Inv(cwd, docs, fs, b)
    requires Good(cwd, docs, fs + [f])
    ensures AddFile(cwd, docs, b, f).Ok?
    ensures Inv(cwd, docs, fs + [f], AddFile(cwd, docs, b, f).value)
  {
    GoodInit(cwd, docs, fs, f);
    if f.keys in FilesKeys(fs) {
      StepSeen(cwd, docs, fs, f, b);
    } else {
      StepNew(cwd, docs, fs, f, b);
    }
  }

  /** The invariant after every prefix of the files. */
  lemma {:induction false} ScanInv(cwd: string, docs: map<string, Doc>, fs: seq<Located>)
    requires Good(cwd, docs, fs)
    ensures Scan(cwd, docs, fs).Ok?
    ensures Inv(cwd, docs, fs, Scan(cwd, docs, fs).value)
    decreases |fs|
  {
    if |fs| == 0 {
      var t := VObj(map[]);
      assert Shape(t);
      forall p | Unseen(p, FilesKeys(fs))
        ensures Walk(t, StrKeys(p)) == Ok(None)
      {
      }
    } else {
      var init := fs[..|fs| - 1];
      var f := fs[|fs| - 1];
      assert fs == init + [f];
      GoodInit(cwd, docs, init, f);
      ScanInv(cwd, docs, init);
      Step(cwd, docs, init, f, Scan(cwd, docs, init).value);
    }
  }

  /** The tree of `getLinksinSubdirs` under the conditions of `Good`: the
      scan succeeds; every directory's `pages` holds the entries of its own
      files in scan order; its `title` is its `_index.md`'s; and the
      `_index.md` files read are those of the distinct directories, in order
      of first use. */
  lemma LinksTree(cwd: string, docs: map<string, Doc>, fs: seq<Located>)
    requires Good(cwd, docs, fs)
    ensures Scan(cwd, docs, fs).Ok?
    ensures forall i :: 0 <= i < |fs| ==>
      Walk(Scan(cwd, docs, fs).value.tree, StrKeys(fs[i].keys + ["pages"])) == Ok(Some(VArr(PagesFor(docs, fs, fs[i].keys))))
    ensures forall i :: 0 <= i < |fs| ==>
      Walk(Scan(cwd, docs, fs).value.tree, StrKeys(fs[i].keys + ["title"])) == Reached(IndexTitle(cwd, docs, fs[i].keys))
    ensures Scan(cwd, docs, fs).value.indexReads == FirstOccurrences(FilesKeys(fs))
  {
    ScanInv(cwd, docs, fs);
    var ks := FilesKeys(fs);
    forall i | 0 <= i < |fs|
      ensures NodeHolds(cwd, docs, fs, fs[i].keys, Scan(cwd, docs, fs).value.tree)
    {
      assert ks[i] == fs[i].keys;
    }
  }

  /** The same for a directory listing, each file located by its path. */
  lemma LinksInSubdirsTree(cwd: string, docs: map<string, Doc>, path: string, entries: seq<Files.Entry>)
    requires Good(cwd, docs, LocateAll(Files.ListAll(path, entries)))
    ensures LinksInSubdirs(cwd, docs, path, entries).Ok?
    ensures var fs := LocateAll(Files.ListAll(path, entries));
      forall i :: 0 <= i < |fs| ==>
        Walk(LinksInSubdirs(cwd, docs, path, entries).value, StrKeys(fs[i].keys + ["pages"])) == Ok(Some(VArr(PagesFor(docs, fs, fs[i].keys))))
    ensures var fs := LocateAll(Files.ListAll(path, entries));
      forall i :: 0 <= i < |fs| ==>
        Walk(LinksInSubdirs(cwd, docs, path, entries).value, StrKeys(fs[i].keys + ["title"])) == Reached(IndexTitle(cwd, docs, fs[i].keys))
  {
    LinksTree(cwd, docs, LocateAll(Files.ListAll(path, entries)));
  }

  /** `FirstOccurrences` has the elements of its argument, each once. */
  lemma {:induction false} FirstOccurrencesFacts<T>(ks: seq<T>)
    ensures forall x :: x in FirstOccurrences(ks) <==> x in ks
    ensures forall i, j :: 0 <= i < j < |FirstOccurrences(ks)| ==> FirstOccurrences(ks)[i] != FirstOccurrences(ks)[j]
  {
    if |ks| > 0 {
      var init := ks[..|ks| - 1];
      assert ks == init + [ks[|ks| - 1]];
      FirstOccurrencesFacts(init);
    }
  }

  /** A directory's pages are exactly the entries of the files with its
      keys. */
  lemma {:induction false} PagesForMembers(docs: map<string, Doc>, fs: seq<Located>, k: seq<string>)
    ensures forall i :: 0 <= i < |fs| && fs[i].keys == k ==> EntryOf(docs, fs[i]) in PagesFor(docs, fs, k)
    ensures forall v :: v in PagesFor(docs, fs, k) ==> exists i :: 0 <= i < |fs| && fs[i].keys == k && v == EntryOf(docs, fs[i])
  {
    if |fs| > 0 {
      var init := fs[..|fs| - 1];
      PagesForMembers(docs, init, k);
      assert forall i :: 0 <= i < |init| ==> init[i] == fs[i];
    }
  }

  // Scans that throw

  /** `q` walks to an object with no `pages`: the root, or a directory
      `set` created on the way down to a deeper one. */
  predicate Bare(t: Value, q: seq<string>) {
    var w := Walk(t, StrKeys(q));
    w.Ok? && w.value.Some? && w.value.value.VObj?
    && Walk(t, StrKeys(q + ["pages"])) == Ok(None)
  }

  /** `q` is a directory above some directory seen so far. */
  predicate BelowSeen(q: seq<string>, ks: seq<seq<string>>) {
    exists j :: 0 <= j < |ks| && Above(q, ks[j])
  }

  /** Every directory that is the root or lies above a seen one, but has
      no file of its own yet, is bare. */
  ghost predicate BareInv(t: Value, ks: seq<seq<string>>) {
    forall q :: NoReserved(q) && q !in ks && (q == [] || BelowSeen(q, ks)) ==> Bare(t, q)
  }

  lemma PrefixThrough(k: seq<string>, q: seq<string>, r: seq<string>)
    requires IsPrefix(k, q) && Above(q, r)
    ensures Above(k, r)
  {
    assert r[..|k|] == r[..|q|][..|k|];
  }

  /** A directory other than `k`, against `k` with a reserved name
      appended. */
  lemma InsideSuffixed(q: seq<string>, k: seq<string>, x: string)
    requires NoReserved(q) && NoReserved(k) && q != k && Reserved(x)
    ensures !IsPrefix(k + [x], q)
    ensures IsPrefix(q, k + [x]) ==> Above(q, k) && !Reserved((k + [x])[|q|])
  {
    ReservedNotInside(k, x, q);
    if IsPrefix(q, k + [x]) && |q| <= |k| {
      assert (k + [x])[..|q|] == k[..|q|];
    }
  }

  /** A `set` at `path` of a defined value keeps a directory bare: one on
      the way to `path` walks to the object `set` passed through, and
      `path` does not go through its `pages`; any other is untouched. */
  lemma BareKept(t: Value, t': Value, path: seq<string>, v: Value, q: seq<string>)
    requires |path| >= 1 && Set(t, StrKeys(path), v) == Ok(t') && Shape(t') && v != VUndef
    requires NoReserved(q) && !IsPrefix(path, q)
    requires IsPrefix(q, path) ==> !Reserved(path[|q|])
    requires Walk(t, StrKeys(q + ["pages"])) == Ok(None)
    requires !IsPrefix(q, path) ==> Bare(t, q)
    ensures Bare(t', q)
  {
    if IsPrefix(q, path) {
      FrameAt(t, path, v, q + ["pages"], |q|);
      var r := path[|q|..];
      assert path == q + r;
      SetThenGet(t, StrKeys(path), v, VBool(false));
      StrKeysAppend(q, r);
      WalkAppend(t', StrKeys(q), StrKeys(r));
      ShapeWalk(t', q);
    } else {
      var i := Parting(q, path);
      FrameAt(t, path, v, q, i);
      FrameAt(t, path, v, q + ["pages"], i);
    }
  }

  /** A directory below no file seen so far walks to nothing, and so does
      its `pages`. */
  lemma UnseenPages(t: Value, q: seq<string>)
    requires Walk(t, StrKeys(q)) == Ok(None)
    ensures Walk(t, StrKeys(q + ["pages"])) == Ok(None)
  {
    StrKeysAppend(q, ["pages"]);
    WalkAppend(t, StrKeys(q), StrKeys(["pages"]));
  }

  /** A push onto the pages of a seen directory keeps every bare directory
      bare. */
  lemma BareAfterPush(t: Value, t': Value, ks: seq<seq<string>>, k: seq<string>, arr: Value)
    requires BareInv(t, ks) && k in ks && NoReserved(k)
    requires Set(t, StrKeys(k + ["pages"]), arr) == Ok(t') && Shape(t') && arr != VUndef
    ensures BareInv(t', ks + [k])
  {
    forall q | NoReserved(q) && q !in ks + [k] && (q == [] || BelowSeen(q, ks + [k]))
      ensures Bare(t', q)
    {
      if q != [] {
        var j :| 0 <= j < |ks + [k]| && Above(q, (ks + [k])[j]);
        if j == |ks| {
          var i :| 0 <= i < |ks| && ks[i] == k;
          assert Above(q, ks[i]);
        } else {
          assert (ks + [k])[j] == ks[j];
        }
      }
      assert q !in ks;
      InsideSuffixed(q, k, "pages");
      BareKept(t, t', k + ["pages"], arr, q);
    }
  }

  lemma BareStepSeen(cwd: string, docs: map<string, Doc>, fs: seq<Located>, f: Located, b: Build)
    requires Inv(cwd, docs, fs, b) && BareInv(b.tree, FilesKeys(fs))
    requires f.path in docs && NoReserved(f.keys) && f.keys in FilesKeys(fs)
    ensures AddFile(cwd, docs, b, f).Ok?
    ensures BareInv(AddFile(cwd, docs, b, f).value.tree, FilesKeys(fs + [f]))
  {
    var k := f.keys;
    var arr := VArr(PagesFor(docs, fs, k) + [EntryOf(docs, f)]);
    FilesKeysAppend(fs, f);
    AddSeen(cwd, docs, fs, f, b);
    var t' := Set(b.tree, StrKeys(k + ["pages"]), arr).value;
    assert (k + ["pages"])[..|k|] == k;
    ShapeSet(b.tree, k + ["pages"], arr);
    BareAfterPush(b.tree, t', FilesKeys(fs), k, arr);
  }

  /** A new node for an unseen `k`: every directory above `k` becomes
      bare, and every bare one other than `k` stays so. */
  lemma BareAfterCreate(t: Value, t1: Value, ks: seq<seq<string>>, k: seq<string>, node: Value, q: seq<string>)
    requires Reach(t, ks) && BareInv(t, ks)
    requires |k| >= 1 && NoReserved(k) && k !in ks
    requires forall j :: 0 <= j < |ks| ==> !Above(k, ks[j])
    requires Set(t, StrKeys(k), node) == Ok(t1) && Shape(t1) && node != VUndef
    requires NoReserved(q) && q != k && q !in ks && (q == [] || BelowSeen(q, ks + [k]))
    ensures Bare(t1, q)
  {
    if Above(q, k) {
      if !(q == [] || BelowSeen(q, ks)) {
        forall j | 0 <= j < |ks|
          ensures !IsPrefix(q, ks[j])
        {
          assert !Above(q, ks[j]) && q != ks[j];
          if |q| == |ks[j]| {
            assert ks[j][..|q|] == ks[j];
          }
        }
        assert Unseen(q, ks);
        UnseenPages(t, q);
      }
      BareKept(t, t1, k, node, q);
    } else {
      var j :| 0 <= j < |ks + [k]| && Above(q, (ks + [k])[j]);
      assert j < |ks| && Above(q, ks[j]);
      if IsPrefix(k, q) {
        PrefixThrough(k, q, ks[j]);
      }
      BareKept(t, t1, k, node, q);
    }
  }

  /** A new node for `k`, then its pages: every directory above `k`
      becomes bare, and every bare one stays so. */
  lemma BareAfterNew(t: Value, t1: Value, t2: Value, ks: seq<seq<string>>, k: seq<string>, node: Value, arr: Value)
    requires Reach(t, ks) && BareInv(t, ks)
    requires |k| >= 1 && NoReserved(k) && k !in ks
    requires forall j :: 0 <= j < |ks| ==> !Above(k, ks[j])
    requires Set(t, StrKeys(k), node) == Ok(t1) && Shape(t1) && node != VUndef
    requires Set(t1, StrKeys(k + ["pages"]), arr) == Ok(t2) && Shape(t2) && arr != VUndef
    ensures BareInv(t2, ks + [k])
  {
    forall q | NoReserved(q) && q !in ks + [k] && (q == [] || BelowSeen(q, ks + [k]))
      ensures Bare(t2, q)
    {
      BareAfterCreate(t, t1, ks, k, node, q);
      InsideSuffixed(q, k, "pages");
      BareKept(t1, t2, k + ["pages"], arr, q);
    }
  }

  lemma BareStepNew(cwd: string, docs: map<string, Doc>, fs: seq<Located>, f: Located, b: Build)
    requires Inv(cwd, docs, fs, b) && BareInv(b.tree, FilesKeys(fs))
    requires f.path in docs && NoReserved(f.keys) && |f.keys| >= 1 && IndexPath(cwd, f.keys) in docs
    requires f.keys !in FilesKeys(fs)
    requires forall j :: 0 <= j < |fs| ==> !Above(f.keys, FilesKeys(fs)[j])
    ensures AddFile(cwd, docs, b, f).Ok?
    ensures BareInv(AddFile(cwd, docs, b, f).value.tree, FilesKeys(fs + [f]))
  {
    var k := f.keys;
    FilesKeysAppend(fs, f);
    var ks := FilesKeys(fs);
    assert Reach(b.tree, ks);
    forall j | 0 <= j < |ks|
      ensures !IsPrefix(k, ks[j])
    {
      assert k != ks[j];
    }
    assert Unseen(k, ks);
    var node := DirNode(docs[IndexPath(cwd, k)]);
    var arr := VArr([EntryOf(docs, f)]);
    AddNew(cwd, docs, f, b);
    var t1 := Set(b.tree, StrKeys(k), node).value;
    var t2 := Set(t1, StrKeys(k + ["pages"]), arr).value;
    BareAfterNew(b.tree, t1, t2, ks, k, node, arr);
  }

  /** Bare directories after every prefix of the files. */
  lemma {:induction false} ScanBare(cwd: string, docs: map<string, Doc>, fs: seq<Located>)
    requires Good(cwd, docs, fs)
    ensures Scan(cwd, docs, fs).Ok?
    ensures BareInv(Scan(cwd, docs, fs).value.tree, FilesKeys(fs))
    decreases |fs|
  {
    if |fs| == 0 {
      var t := VObj(map[]);
      forall q | NoReserved(q) && q !in FilesKeys(fs) && (q == [] || BelowSeen(q, FilesKeys(fs)))
        ensures Bare(t, q)
      {
        assert q == [];
        assert StrKeys(q + ["pages"]) == [KStr("pages")];
      }
    } else {
      var init := fs[..|fs| - 1];
      var f := fs[|fs| - 1];
      assert fs == init + [f];
      GoodInit(cwd, docs, init, f);
      ScanInv(cwd, docs, init);
      ScanBare(cwd, docs, init);
      var b := Scan(cwd, docs, init).value;
      if f.keys in FilesKeys(init) {
        BareStepSeen(cwd, docs, init, f, b);
      } else {
        BareStepNew(cwd, docs, init, f, b);
      }
    }
  }

  /** A file whose directory is bare finds the object `set` created: it is
      truthy, so no node is made, and it has no `pages` to push onto, so
      the push throws. */
  lemma BareNodeFails(cwd: string, docs: map<string, Doc>, fs: seq<Located>, f: Located)
    requires Good(cwd, docs, fs)
    requires f.path in docs && NoReserved(f.keys) && f.keys !in FilesKeys(fs)
    requires f.keys == [] || BelowSeen(f.keys, FilesKeys(fs))
    ensures Scan(cwd, docs, fs + [f]) == Err(TypeError)
  {
    var k := f.keys;
    ScanBare(cwd, docs, fs);
    var b := Scan(cwd, docs, fs).value;
    assert Bare(b.tree, k);
    var u := Walk(b.tree, StrKeys(k)).value.value;
    assert EnsureNode(cwd, docs, b, k) == Ok(b);
    StrKeysAppend(k, ["pages"]);
    WalkAppend(b.tree, StrKeys(k), StrKeys(["pages"]));
    assert ReadProp(u, KStr("pages")) == Ok(VUndef);
    assert (fs + [f])[..|fs|] == fs;
  }

  /** A file directly under "content/", after any files that scan well,
      has no directory node to push onto: the root has no `pages`, and the
      push throws. */
  lemma RootFileFails(cwd: string, docs: map<string, Doc>, fs: seq<Located>, f: Located)
    requires Good(cwd, docs, fs)
    requires f.keys == [] && f.path in docs
    ensures Scan(cwd, docs, fs + [f]) == Err(TypeError)
  {
    BareNodeFails(cwd, docs, fs, f);
  }

  /** A file of a directory scanned after a file of one of its
      subdirectories, with none of its own before: the directory is the bare
      object `set` created on the way down, and the push throws. */
  lemma SubdirFirstFails(cwd: string, docs: map<string, Doc>, fs: seq<Located>, i: nat, f: Located)
    requires Good(cwd, docs, fs)
    requires i < |fs| && Above(f.keys, fs[i].keys)
    requires f.path in docs && f.keys !in FilesKeys(fs)
    ensures Scan(cwd, docs, fs + [f]) == Err(TypeError)
  {
    var ks := FilesKeys(fs);
    assert ks[i] == fs[i].keys;
    assert NoReserved(f.keys) by {
      assert forall x :: 0 <= x < |f.keys| ==> f.keys[x] == ks[i][x];
    }
    BareNodeFails(cwd, docs, fs, f);
  }
}

=== FILE: pathtree.dfy ===
/** The path-keyed `get` and `set` helpers of lib/lib.js.

    `set` mutates its argument in place and returns it; the model returns the
    updated tree instead. The trees the helpers build share no objects, so
    the two readings agree. */
module PathTree {
  import opened Results
  import opened Json

  /** The walk `get` performs: `Some` of the value reached, or `None` as soon
      as a key reads `undefined`. Reading a key of `null` throws. */
  function Walk(t: Value, path: seq<Key>): Result<Option<Value>>
    decreases |path|
  {
    if |path| == 0 then Ok(Some(t))
    else
      var v :- ReadProp(t, path[0]);
      if v == VUndef then Ok(None) else Walk(v, path[1..])
  }

  /** `get(obj, path, defaultValue)`. */
  function Get(t: Value, path: seq<Key>, default: Value): (r: Result<Value>)
    ensures path == [] ==> r == Ok(t)
    ensures r.Ok? && r.value != default ==> Walk(t, path) == Ok(Some(r.value))
    ensures Walk(t, path) == Ok(None) ==> r == Ok(default)
    ensures Walk(t, path).Ok? && Walk(t, path).value.Some? ==> r == Ok(Walk(t, path).value.value)
    ensures Walk(t, path).Err? <==> r.Err?
  {
    var w :- Walk(t, path);
    Ok(if w.Some? then w.value else default)
  }

  /** The container `set` creates for a missing step: an array when the key
      that follows is a number, an object otherwise. */
  function Container(next: Key): Value {
    if next.KNum? then VArr([]) else VObj(map[])
  }

  /** `set(obj, path, value)`. An empty path assigns the property named
      "undefined", since the source indexes `path[path.length - 1]`. A missing
      intermediate is assigned before the walk goes on into it, so an
      assignment the object refuses fails there first. */
  function Set(t: Value, path: seq<Key>, v: Value): (r: Result<Value>)
    ensures r.Ok? ==> (t.VObj? && r.value.VObj?) || (t.VArr? && r.value.VArr?)
    decreases |path|
  {
    if |path| == 0 then Assign(t, KStr("undefined"), v)
    else if |path| == 1 then Assign(t, path[0], v)
    else
      var cur :- ReadProp(t, path[0]);
      var child :- if cur != VUndef then Ok(cur)
                   else var created :- Assign(t, path[0], Container(path[1])); Ok(Container(path[1]));
      var child' :- Set(child, path[1..], v);
      Assign(t, path[0], child')
  }

  /** Walking a concatenated path is walking the first part, then the rest
      from where it ended. */
  lemma {:induction false} WalkAppend(t: Value, a: seq<Key>, b: seq<Key>)
    ensures Walk(t, a + b) ==
      match Walk(t, a)
      case Err(e) => Err(e)
      case Ok(None) => Ok(None)
      case Ok(Some(u)) => Walk(u, b)
    decreases |a|
  {
    if |a| > 0 {
      assert (a + b)[0] == a[0];
      assert (a + b)[1..] == a[1..] + b;
      var v := ReadProp(t, a[0]);
      if v.Ok? && v.value != VUndef {
        WalkAppend(v.value, a[1..], b);
      }
    } else {
      assert a + b == b;
    }
  }

  /** Two keys with the same property name read the same property. */
  lemma ReadPropByName(t: Value, k1: Key, k2: Key)
    requires PropName(k1) == PropName(k2)
    ensures ReadProp(t, k1) == ReadProp(t, k2)
  {
  }

  /** One step of `set` on a path of two or more keys: the child it walks
      into (the present value, or the container it creates) and the child
      after the rest of the path is set in it. */
  lemma SetStep(t: Value, path: seq<Key>, v: Value) returns (child: Value, child': Value)
    requires |path| > 1
    requires Set(t, path, v).Ok?
    ensures ReadProp(t, path[0]).Ok?
    ensures var cur := ReadProp(t, path[0]).value;
      child == if cur != VUndef then cur else Container(path[1])
    ensures Set(child, path[1..], v) == Ok(child')
    ensures Assign(t, path[0], child') == Set(t, path, v)
    ensures ReadProp(Set(t, path, v).value, path[0]) == Ok(child')
  {
    var cur := ReadProp(t, path[0]).value;
    child := if cur != VUndef then cur else Container(path[1]);
    child' := Set(child, path[1..], v).value;
  }

  /** After a successful `set` of `v` at a non-empty path, `get` of that path
      returns `v`, or the default when `v` is itself `undefined`. */
  lemma {:induction false} SetThenGet(t: Value, path: seq<Key>, v: Value, default: Value)
    requires |path| >= 1
    requires Set(t, path, v).Ok?
    ensures Walk(Set(t, path, v).value, path) == (if v == VUndef then Ok(None) else Ok(Some(v)))
    ensures Get(Set(t, path, v).value, path, default) == Ok(if v == VUndef then default else v)
    decreases |path|
  {
    if |path| > 1 {
      var child, child' := SetStep(t, path, v);
      SetThenGet(child, path[1..], v, default);
    }
  }

  /** `set` leaves alone a path whose first key names another property. */
  lemma SetFrameHead(t: Value, path: seq<Key>, v: Value, p: seq<Key>)
    requires |path| >= 1 && |p| >= 1
    requires Set(t, path, v).Ok?
    requires PropName(p[0]) != PropName(path[0])
    ensures Walk(Set(t, path, v).value, p) == Walk(t, p)
  {
    if |path| == 1 {
      AssignFrame(t, path[0], v, p[0]);
    } else {
      var child, child' := SetStep(t, path, v);
      AssignFrame(t, path[0], child', p[0]);
    }
  }

  /** `set` leaves alone every path that parts from the set path: a path
      whose `i`-th key names a different property than the set path's. */
  lemma {:induction false} SetFrame(t: Value, path: seq<Key>, v: Value, p: seq<Key>, i: nat)
    requires |path| >= 1
    requires Set(t, path, v).Ok?
    requires i < |p| && i < |path| && PropName(p[i]) != PropName(path[i])
    ensures Walk(Set(t, path, v).value, p) == Walk(t, p)
    decreases |path|
  {
    if PropName(p[0]) != PropName(path[0]) {
      SetFrameHead(t, path, v, p);
    } else {
      var t' := Set(t, path, v).value;
      var child, child' := SetStep(t, path, v);
      ReadPropByName(t', p[0], path[0]);
      ReadPropByName(t, p[0], path[0]);
      SetFrame(child, path[1..], v, p[1..], i - 1);
      if ReadProp(t, path[0]).value == VUndef {
        assert ReadProp(child, p[1]) == Ok(VUndef);
      }
    }
  }

  /** A step that was missing before `set` holds, afterwards, the container
      chosen by the key that follows it: an array for a number, an object
      otherwise. */
  lemma {:induction false} SetCreatesContainer(t: Value, path: seq<Key>, v: Value, i: nat)
    requires Set(t, path, v).Ok?
    requires 1 <= i < |path|
    requires Walk(t, path[..i]) == Ok(None)
    ensures Walk(Set(t, path, v).value, path[..i]).Ok?
    ensures Walk(Set(t, path, v).value, path[..i]).value.Some?
    ensures var c := Walk(Set(t, path, v).value, path[..i]).value.value;
      if path[i].KNum? then c.VArr? else c.VObj?
    decreases |path|
  {
    var child, child' := SetStep(t, path, v);
    assert path[..i][0] == path[0] && path[..i][1..] == path[1..][..i - 1];
    if i > 1 {
      if ReadProp(t, path[0]).value == VUndef {
        assert ReadProp(child, path[1]) == Ok(VUndef);
      }
      SetCreatesContainer(child, path[1..], v, i - 1);
    }
  }

  /** A value `set` can assign a property of: an object, or an array when the
      property is an index. */
  predicate Writable(c: Value, k: Key) {
    c.VObj? || (c.VArr? && ArrayIndex(PropName(k)).Some?)
  }

  /** Every value already present along the path (the root included) is
      writable at the next key. */
  predicate ContainersAlong(t: Value, path: seq<Key>) {
    forall i :: 0 <= i < |path| ==>
      Walk(t, path[..i]) == Ok(None) ||
      (Walk(t, path[..i]).Ok? && Walk(t, path[..i]).value.Some? && Writable(Walk(t, path[..i]).value.value, path[i]))
  }

  /** `set` succeeds when the values already along the path are containers,
      and then `get` of the path returns what was set. */
  lemma {:induction false} SetSucceeds(t: Value, path: seq<Key>, v: Value, default: Value)
    requires |path| >= 1
    requires ContainersAlong(t, path)
    ensures Set(t, path, v).Ok?
    ensures Get(Set(t, path, v).value, path, default) == Ok(if v == VUndef then default else v)
    decreases |path|
  {
    assert path[..0] == [];
    assert Writable(t, path[0]);
    if |path| > 1 {
      var cur := ReadProp(t, path[0]).value;
      var child := if cur != VUndef then cur else Container(path[1]);
      var rest := path[1..];
      forall j | 0 <= j < |rest|
        ensures Walk(child, rest[..j]) == Ok(None) ||
          (Walk(child, rest[..j]).Ok? && Walk(child, rest[..j]).value.Some? && Writable(Walk(child, rest[..j]).value.value, rest[j]))
      {
        if cur == VUndef {
          if j > 0 {
            assert ReadProp(child, rest[0]) == Ok(VUndef);
          } else {
            assert rest[..j] == [];
          }
        } else {
          assert path[..j + 1][0] == path[0] && path[..j + 1][1..] == rest[..j];
          assert rest[j] == path[j + 1];
        }
      }
      SetSucceeds(child, rest, v, default);
    }
    SetThenGet(t, path, v, default);
  }
}

=== FILE: posts.dfy ===
/** `getPostBySlug`: one content file projected onto the fields a page asks
    for, with its `date` rendered as text.

    Reading and parsing the file is replaced by its parse: a `Doc` holds the
    front-matter table and the body that the front-matter parser returns. */
module Posts {
  import opened Results
  import opened Json
  import opened Stringify

  /** A parsed content file: its front-matter table and its body. */
  datatype Doc = Doc(data: map<string, Value>, content: string)

  /** A projected post: a plain object whose `date` is always a string. */
  type Post = m: map<string, Value> | "date" in m && m["date"].VStr? witness map["date" := VStr("")]

  function DateOf(p: Post): string {
    p["date"].s
  }

  /** The collection directories, relative to the working directory. */
  const Directories: map<string, string> :=
    map["blog" := "content/blog", "events" := "content/events", "docs" := "content/docs"]

  predicate EndsWithMd(s: string) {
    |s| >= 3 && s[|s| - 3..] == ".md"
  }

  /** `slug.replace(/\.md$/, "")`: one trailing ".md" removed. */
  function StripMd(slug: string): (r: string)
    ensures EndsWithMd(slug) ==> r + ".md" == slug
    ensures !EndsWithMd(slug) ==> r == slug
  {
    if EndsWithMd(slug) then slug[..|slug| - 3] else slug
  }

  /** Adding ".md" and stripping it gives the name back, so only the last
      of several ".md" suffixes goes. */
  lemma StripMdOnce(s: string)
    ensures StripMd(s + ".md") == s
    ensures StripMd("a.md.md") == "a.md"
  {
    assert (s + ".md")[|s + ".md"| - 3..] == ".md";
    assert ("a.md.md")[4..] == ".md";
  }

  /** One round of the `fields.forEach` callback. */
  function ProjectField(items: map<string, Value>, slug: string, doc: Doc, field: string): map<string, Value> {
    var withSlug := if field == "slug" then items[field := VStr(slug)] else items;
    var withContent := if field == "content" then withSlug[field := VStr(doc.content)] else withSlug;
    if Truthy(Member(doc.data, field)) then withContent[field := doc.data[field]] else withContent
  }

  /** The `items` object after `fields.forEach`: only requested fields; "slug"
      and "content" always, from the stripped slug and the body; any other
      field only when its front-matter value is truthy; and a truthy
      front-matter value wins over the slug and the body. */
  function Project(slug: string, doc: Doc, fields: seq<string>): (r: map<string, Value>)
    ensures forall f :: f in r ==> f in fields
    ensures forall f :: f in fields ==>
      (f in r <==> f == "slug" || f == "content" || Truthy(Member(doc.data, f)))
    ensures forall f :: f in r && Truthy(Member(doc.data, f)) ==> r[f] == doc.data[f]
    ensures forall f :: f in r && !Truthy(Member(doc.data, f)) ==>
      r[f] == (if f == "content" then VStr(doc.content) else VStr(slug))
  {
    if |fields| == 0 then map[]
    else ProjectField(Project(slug, doc, fields[..|fields| - 1]), slug, doc, fields[|fields| - 1])
  }

  /** `items.date = JSON.stringify(items.date).replace(/"/g, "")`, run
      whether or not a date was projected: with no date the stringified
      value is `undefined` and calling `replace` on it throws. */
  function NormaliseDate(items: map<string, Value>): (r: Result<Post>)
    ensures Member(items, "date") == VUndef ==> r == Err(TypeError)
    ensures !(Member(items, "date").VUndef? || Member(items, "date").VObj? || Member(items, "date").VArr?) ==> r.Ok?
    ensures r.Ok? ==> r.value.Keys == items.Keys + {"date"}
    ensures r.Ok? ==> forall k :: k in items && k != "date" ==> r.value[k] == items[k]
    ensures r.Ok? ==> '"' !in DateOf(r.value)
  {
    var text :- JsonText(Member(items, "date"));
    if text.None? then Err(TypeError)
    else Ok(items["date" := VStr(RemoveQuotes(text.value))])
  }

  /** A date whose text has only plain characters comes out as that text;
      an integer comes out as its decimal text. */
  lemma NormalisedDateText(items: map<string, Value>)
    requires "date" in items
    ensures items["date"].VDate? && (forall i :: 0 <= i < |items["date"].iso| ==> Plain(items["date"].iso[i]))
      ==> NormaliseDate(items).Ok? && DateOf(NormaliseDate(items).value) == items["date"].iso
    ensures items["date"].VStr? && (forall i :: 0 <= i < |items["date"].s| ==> Plain(items["date"].s[i]))
      ==> NormaliseDate(items).Ok? && DateOf(NormaliseDate(items).value) == items["date"].s
    ensures items["date"].VInt? ==> NormaliseDate(items).Ok? && DateOf(NormaliseDate(items).value) == Decimal.IntToDec(items["date"].i)
  {
    match items["date"]
    case VDate(iso) =>
      if forall i :: 0 <= i < |iso| ==> Plain(iso[i]) {
        QuoteThenRemove(iso);
      }
    case VStr(s) =>
      if forall i :: 0 <= i < |s| ==> Plain(s[i]) {
        QuoteThenRemove(s);
      }
    case VInt(n) =>
      RemoveQuotesNone(Decimal.IntToDec(n));
    case _ =>
  }

  /** The path `getPostBySlug` reads for `slug` in the directory `dir`. */
  function PostPath(dir: string, slug: string): string {
    dir + "/" + StripMd(slug) + ".md"
  }

  /** `getPostBySlug(slug, fields, key)`, the parsed files given by path.
      A key with no collection directory makes `join` throw. */
  function GetPostBySlug(files: map<string, Doc>, slug: string, fields: seq<string>, key: string): (r: Result<Post>)
    ensures key !in Directories ==> r == Err(TypeError)
    ensures key in Directories && PostPath(Directories[key], slug) !in files ==>
      r == Err(NotFound(PostPath(Directories[key], slug)))
    ensures r.Ok? ==> forall f :: f in r.value ==> f in fields || f == "date"
    ensures r.Ok? && "slug" in fields ==> "slug" in r.value
    ensures r.Ok? ==> "date" in fields
  {
    if key !in Directories then Err(TypeError)
    else
      var path := PostPath(Directories[key], slug);
      if path !in files then Err(NotFound(path))
      else NormaliseDate(Project(StripMd(slug), files[path], fields))
  }
}

=== FILE: results.dfy ===
/** Failure-compatible result types shared by every module of the model.

    The JavaScript source reports failure only by throwing; the model returns
    an `Err` naming what would have been thrown instead. */
module Results {

  datatype Option<+T> = None | Some(value: T)

  /** Why an operation fails.
      - TypeError: reading a property of `null`/`undefined`, assigning a
        property of a primitive (the module code runs in strict mode), or
        calling a method that does not exist.
      - NotFound: a file the operation reads is absent.
      - Unrepresentable: the JavaScript program would go on, but the result
        is a value this model has no constructor for (see README). */
  datatype Error = TypeError | NotFound(path: string) | Unrepresentable

  datatype Result<+T> = Ok(value: T) | Err(error: Error) {

    predicate IsFailure() {
      Err?
    }

    function PropagateFailure<U>(): Result<U>
      requires Err?
    {
      Err(error)
    }

    function Extract(): T
      requires Ok?
    {
      value
    }
  }
}

=== FILE: stringify.dfy ===
/** `JSON.stringify` on the values a front-matter `date` field can hold, and
    the quote removal `getPostBySlug` applies to its text. */
module Stringify {
  import opened Results
  import opened Decimal
  import opened Json

  function HexDigit(d: nat): char
    requires d < 16
  {
    "0123456789abcdef"[d]
  }

  /** The escape JSON writes for one character of a string. */
  function EscapeChar(c: char): string {
    if c == '"' then "\\\""
    else if c == '\\' then "\\\\"
    else if c as int == 0x08 then "\\b"
    else if c as int == 0x0C then "\\f"
    else if c == '\n' then "\\n"
    else if c == '\r' then "\\r"
    else if c == '\t' then "\\t"
    else if (c as int) < 0x20 then "\\u00" + [HexDigit((c as int) / 16), HexDigit((c as int) % 16)]
    else [c]
  }

  function Escape(s: string): string {
    if |s| == 0 then "" else EscapeChar(s[0]) + Escape(s[1..])
  }

  /** A JSON string literal. */
  function Quote(s: string): string {
    "\"" + Escape(s) + "\""
  }

  /** `JSON.stringify(v)`: `None` when the result is `undefined`, as it is
      for `undefined` itself. A date renders as the string its `toJSON`
      returns; an array renders its elements, `undefined` ones as `null`. */
  function JsonText(v: Value): (r: Result<Option<string>>)
    ensures r == Ok(None) <==> v == VUndef
    ensures v.VObj? ==> r == Err(Unrepresentable)
    ensures r.Err? ==> r.error == Unrepresentable
    decreases v, 1
  {
    match v
    case VUndef => Ok(None)
    case VNull => Ok(Some("null"))
    case VBool(b) => Ok(Some(if b then "true" else "false"))
    case VInt(i) => Ok(Some(IntToDec(i)))
    case VStr(s) => Ok(Some(Quote(s)))
    case VDate(iso) => Ok(Some(Quote(iso)))
    case VArr(a) =>
      var inner :- ElementsText(a);
      Ok(Some("[" + inner + "]"))
    case VObj(_) => Err(Unrepresentable)
  }

  /** The comma-separated elements of an array literal. */
  function ElementsText(a: seq<Value>): (r: Result<string>)
    ensures r.Err? ==> r.error == Unrepresentable
    decreases a, 0
  {
    if |a| == 0 then Ok("")
    else
      var head :- JsonText(a[0]);
      var rest :- ElementsText(a[1..]);
      var h := if head.Some? then head.value else "null";
      Ok(if |a| == 1 then h else h + "," + rest)
  }

  /** Every value but an object or an array renders, and an array that
      renders is its elements between brackets. */
  lemma JsonTextRenders(v: Value)
    ensures !v.VObj? && !v.VArr? ==> JsonText(v).Ok?
    ensures v.VArr? && JsonText(v).Ok? ==>
      (JsonText(v).value.Some? && var t := JsonText(v).value.value;
       |t| >= 2 && t[0] == '[' && t[|t| - 1] == ']')
  {
  }

  lemma {:induction false} ElementsWithObject(a: seq<Value>, i: nat)
    requires i < |a| && a[i].VObj?
    ensures ElementsText(a) == Err(Unrepresentable)
    decreases i
  {
    if i > 0 {
      ElementsWithObject(a[1..], i - 1);
    }
  }

  /** An array with an object among its elements cannot be rendered either:
      the error of that element ends the whole text. */
  lemma ArrayWithObject(v: Value, i: nat)
    requires v.VArr? && i < |v.a| && v.a[i].VObj?
    ensures JsonText(v) == Err(Unrepresentable)
  {
    ElementsWithObject(v.a, i);
  }

  /** `.replace(/"/g, "")`: every double quote removed. */
  function RemoveQuotes(s: string): (r: string)
    ensures '"' !in r
    ensures |r| <= |s|
  {
    if |s| == 0 then ""
    else (if s[0] == '"' then "" else [s[0]]) + RemoveQuotes(s[1..])
  }

  /** A character JSON writes as itself inside a string. */
  predicate Plain(c: char) {
    c != '"' && c != '\\' && (c as int) >= 0x20
  }

  lemma {:induction false} EscapePlain(s: string)
    requires forall i :: 0 <= i < |s| ==> Plain(s[i])
    ensures Escape(s) == s
  {
    if |s| > 0 {
      EscapePlain(s[1..]);
      assert s == [s[0]] + s[1..];
    }
  }

  lemma {:induction false} RemoveQuotesAppend(a: string, b: string)
    ensures RemoveQuotes(a + b) == RemoveQuotes(a) + RemoveQuotes(b)
  {
    if |a| > 0 {
      assert (a + b)[1..] == a[1..] + b;
      RemoveQuotesAppend(a[1..], b);
    } else {
      assert a + b == b;
    }
  }

  lemma {:induction false} RemoveQuotesNone(s: string)
    requires '"' !in s
    ensures RemoveQuotes(s) == s
  {
    if |s| > 0 {
      RemoveQuotesNone(s[1..]);
      assert s == [s[0]] + s[1..];
    }
  }

  /** Stringifying a string of plain characters and then removing the quotes
      gives the string back. */
  lemma QuoteThenRemove(s: string)
    requires forall i :: 0 <= i < |s| ==> Plain(s[i])
    ensures RemoveQuotes(Quote(s)) == s
  {
    EscapePlain(s);
    assert Quote(s) == "\"" + (s + "\"");
    assert RemoveQuotes("\"") == "";
    RemoveQuotesAppend("\"", s + "\"");
    RemoveQuotesAppend(s, "\"");
    RemoveQuotesNone(s);
  }
}

=== FILE: text.dfy ===
/** Character search in strings, as `indexOf` and `lastIndexOf` do it. */
module Text {
  import opened Results

  /** The position of the first `c` in `s`. */
  function FirstIndex(s: string, c: char): (r: Option<nat>)
    ensures r.Some? ==> r.value < |s| && s[r.value] == c && c !in s[..r.value]
    ensures r.None? ==> c !in s
  {
    if |s| == 0 then None
    else if s[0] == c then Some(0)
    else
      match FirstIndex(s[1..], c)
      case None => None
      case Some(i) =>
        assert s[..i + 1] == [s[0]] + s[1..][..i];
        Some(i + 1)
  }

  lemma FirstIndexAfter(a: string, c: char, b: string)
    requires c !in a
    ensures FirstIndex(a + [c] + b, c) == Some(|a|)
  {
    var s := a + [c] + b;
    assert s[|a|] == c && s[..|a|] == a;
  }

  /** The position of the last `c` in `s`. */
  function LastIndex(s: string, c: char): (r: Option<nat>)
    ensures r.Some? ==> r.value < |s| && s[r.value] == c && c !in s[r.value + 1..]
    ensures r.None? ==> c !in s
  {
    if |s| == 0 then None
    else if s[|s| - 1] == c then Some(|s| - 1)
    else
      match LastIndex(s[..|s| - 1], c)
      case None => None
      case Some(i) =>
        assert s[i + 1..] == s[..|s| - 1][i + 1..] + [s[|s| - 1]];
        Some(i)
  }

  lemma LastIndexBefore(a: string, c: char, b: string)
    requires c !in b
    ensures LastIndex(a + [c] + b, c) == Some(|a|)
  {
    var s := a + [c] + b;
    assert s[|a|] == c && s[|a| + 1..] == b;
  }
}
